=== FILE: README.md ===
# Trello client core, modelled in Dafny

This project models the browser client for the Trello REST API in
`index.js`. The client holds an application key and an access token. It can:

- build REST requests (`get`, `put`, `post`, `delete` through `rest` and
  `parseRestArgs`);
- obtain a token with `authorize`, either from the location fragment, from
  `localStorage`, through a full-page redirect to the authorization endpoint,
  or through a popup that posts the token back;
- build the authorization URL (`authorizeURL`);
- forget the token (`deauthorize`);
- keep the token under the `trello_` prefix in storage (`readStorage` and
  `writeStorage`).

Beside the class, the module-level `waitUntil`/`isReady` pair keeps a registry
of named values and of the callbacks that wait for them.

The browser is passed in as plain values. `Authorization.Authorize` is a step
function. It takes the client, the store, the caller's options and an
environment: the location fragment, the page URL, the page origin and the
window the popup opener returns. It returns the new client, the new store,
the value written to `location.hash` if any, and one of four outcomes:

- resolved;
- rejected;
- a redirect to a URL;
- a popup at a URL, together with the pending message listener.

`Authorization.ReceiveMessage` is that listener's transition.

JavaScript values are modelled by `Js.Value`:

- objects are insertion-ordered property lists;
- `Object.assign` is `Js.Assign`;
- `String(v)` is `Js.ToString`.

`encodeURIComponent` is `UriCodec.Encode`, with UTF-8 bytes written as
upper-case hex. `decodeURIComponent` is `UriCodec.Decode`, which serves as the
encoder's reference. Like `decodeURIComponent`, it refuses malformed escapes and
any UTF-8 byte run that is not the shortest encoding of a scalar value. `JSON.stringify` is modelled structurally by `Json.FromValue`.

The model keeps the code's behaviour where it is surprising:

- A missing `name` option travels as the text `undefined`
  (`AuthorizationProps.DefaultRedirect`).
- A GET made without a token sends `token=null` when no persisting attempt
  has run (`Scenarios.GetWithoutToken`).
- A persisting attempt that finds no token anywhere assigns the empty storage
  read to the client, so its token becomes `undefined` rather than staying
  `null`. A later GET then sends `token=undefined`
  (`AuthorizationProps.EmptyStorageReadKept`, `Scenarios.GetAfterEmptyStorageRead`).
- GET parameters are not percent-encoded (`Scenarios.GetSendsRawValues`),
  while the authorization URL's are (`Scenarios.SpaceIsEncoded`).
- The popup accepts any data that contains a run of 64 lower-case hex digits
  anywhere, and keeps the whole data as the token
  (`AuthorizationProps.UnanchoredToken`).
- The options merge is shallow, so a caller's `scope` replaces the default
  scope as a whole. The code's own comment at line 105 admits this.
- `writeStorage` deletes the entry only for `null`. Any other value, including
  `undefined`, is stored as its string form.

## Model

| member | source | states |
|---|---|---|
| Registry.WaitUntil | index.js:7-13 | With a value other than null/undefined registered, the callback is called with it at once and the registry is unchanged. Otherwise the callback joins the end of that name's waiting list, and nothing else changes. |
| Registry.IsReady | index.js:15-26 | The name's value becomes the given value, whatever it is. Its waiting list is dropped. Exactly the waiting callbacks are called with the value, in arrival order. Other names keep their values and lists. |
| Registry.ApplyConsistent | index.js:3-26 | Each call keeps the registries consistent: a waiting list is never empty, and it exists only for a name with no non-null value. |
| Registry.RunConsistent | index.js:3-26 | Any run of calls keeps the registries consistent. |
| Registry.InitialRunConsistent | index.js:3-5 | Starting from the empty registries the script loads with, every run of calls leaves them consistent. |
| Registry.WaitThenReady | index.js:7-26 | A callback that waits for a name is called once, with the value, when the name becomes ready, after the callbacks that were already waiting. |
| Registry.ReadyThenWait | index.js:7-26 | Once a name holds a non-null value, a new waiter is called with it straight away. |
| Registry.ReadyTwice | index.js:15-26 | Marking a name ready a second time calls nobody. |
| TrelloClient.NewClient | index.js:30-39 | A new client keeps the key it was given, and its token starts as null. |
| TrelloClient.Authorized | index.js:94-96 | `authorized()` uses the loose `!= null`, so a client is authorized exactly when its token is neither null nor undefined. |
| TrelloClient.Deauthorize | index.js:98-101 | The token becomes null and the client is not authorized. The stored token is deleted, so reading it yields undefined. Every other stored entry stays as it was. |
| TrelloClient.DeauthorizeIdempotent | index.js:98-101 | Deauthorizing twice is the same as deauthorizing once. |
| StorageAdapter.ReadStorage | index.js:214-216 | A read yields the string stored in the prefixed slot when that slot exists, and undefined otherwise. |
| StorageAdapter.WriteStorage | index.js:218-224 | Writing null removes the prefixed slot. Any other value creates or overwrites the slot. No other slot changes. |
| StorageAdapter.ReadAfterWrite | index.js:214-224 | Reading back a write yields the string form of the value written, or undefined after writing null. |
| StorageAdapter.ReadOtherAfterWrite | index.js:214-224 | A write under one key never changes what another key reads. |
| StorageAdapter.SlotInjective | index.js:214-224 | Distinct keys map to distinct prefixed slots. |
| Js.Assign | index.js:77 | `Object.assign` keeps every key of the target, and the result has at most as many properties as the target and the source together. |
| Js.AssignKeyOrigin | index.js:197 | Every key after `Object.assign` comes from the target or the source. |
| Js.AssignKeys | index.js:197 | `Object.assign` keeps the target's keys in place and appends the source's new keys in the order the source first lists them. |
| Js.AssignGet | index.js:197 | After `Object.assign`, a key takes the source's last value for it when the source has the key, and keeps the target's value otherwise. |
| Js.AssignFresh | index.js:197 | Assigning distinct keys the target lacks is a concatenation. |
| Js.AssignWellFormed | index.js:77 | `Object.assign` never creates a repeated key. |
| Js.OwnProps | index.js:141 | `Object.keys` throws exactly on null and undefined. An object yields its own properties. A string yields one property per character, keyed `"0"`, `"1"` and so on. A boolean, a number or a function yields none. |
| Js.NatToString | index.js:199 | A natural number's text is a non-empty run of decimal digits, which reads back as the number, with no leading zero except for 0 itself. |
| Js.DecimalUnique | index.js:82 | Two digit strings without leading zeros that spell the same number are equal, so the contracts below fix the text of a number. |
| Js.IntToString | index.js:82 | An integer's text is its decimal digits without leading zeros, after a `-` when it is negative, and reads back as the number. |
| Js.ToString | index.js:82 | `String(v)` is `undefined` for undefined and `null` for null. It is `true` or `false` for a boolean, and the decimal text without leading zeros that reads back as the number for an integer. A string stays itself, an object is `[object Object]` and a function is its source text. |
| Text.SplitJoin | index.js:82-83 | Splitting at a separator undoes joining with it when no piece contains the separator. |
| Text.StripLeadingSlashes | index.js:210 | The result is a suffix of the path, what was removed is all slashes, and the result does not start with a slash. |
| Text.LowerAscii | index.js:79 | Letter case is folded character by character, with the length kept. |
| UriCodec.EncodeChar | index.js:199 | An unreserved character encodes as itself. Any other character encodes as its UTF-8 bytes, each written `%XX`. |
| UriCodec.Encode | index.js:199 | The encoding holds only `%` and unreserved characters, so never a `&` or an `=`. |
| UriCodec.EncodeUnreserved | index.js:199 | A string of unreserved characters encodes as itself. |
| UriCodec.Utf8RoundTrip | index.js:199 | The UTF-8 bytes of a code point announce their length in the first byte and decode back to the code point. |
| UriCodec.DecodeEncode | index.js:199 | `decodeURIComponent(encodeURIComponent(s)) == s` for every string. |
| UriCodec.OverlongRefused | index.js:199 | The overlong form `%C0%80` does not decode, as `decodeURIComponent` throws on it. So the decoder only takes back shortest-form UTF-8, and the round trip rules out an encoder that writes overlong bytes. |
| TokenPattern.MatchAt | index.js:117-120 | A match spans 70 characters, or 71 with the optional `&`/`#`. It ends with `token=` and the captured 64 hex digits. |
| TokenPattern.FindTokenFrom | index.js:117-120 | The search returns the leftmost position where the pattern matches, and none when no position matches. |
| TokenPattern.LeftmostMatch | index.js:117-120 | Conversely, the leftmost matching position is the one found. |
| TokenPattern.StripToken | index.js:133 | Replacing the pattern removes exactly the first match and keeps the text around it. Without a match the fragment is unchanged. |
| Json.FromValue | index.js:80 | `JSON.stringify` omits exactly undefined and functions. Null, a boolean, a number and a string become the JSON null, boolean, number and string with the same value, and an object becomes a JSON object. |
| Json.MemberOfMembers | index.js:80 | In an object without repeated keys, the serialised member for a key is the JSON form of that property. |
| Json.ObjectMember | index.js:80 | The body serialised for an object is a JSON object whose member for each key is that property's JSON form. |
| AuthUrl.AuthorizeURL | index.js:191-202 | The URL starts with the endpoint, the version and `/authorize?`. |
| AuthUrl.AuthorizeParamsOrder | index.js:192-197 | The parameters are `response_type` and `key` first, keeping their place when overridden, then the caller's new keys in order. Each carries the last value assigned to it. |
| AuthUrl.EncodedPairs | index.js:198-200 | There is one piece per property, in order, each the key, `=` and the encoded string form of the value. |
| AuthUrl.ParseEncodedPiece | index.js:199 | One `key=encodeURIComponent(value)` piece, with a key free of `&` and `=`, reads back as the key and the value's string form, and holds no `&`. |
| AuthUrl.ParseEncodedPairs | index.js:198-200 | Each `key=encodeURIComponent(value)` piece reads back as the key and the value's string form, and contains no `&`. |
| AuthUrl.AuthorizeParamsPlain | index.js:197 | The merged parameters have keys free of `&` and `=` whenever the caller's keys are. |
| AuthUrl.AuthorizeURLParses | index.js:191-202 | The URL is the endpoint, version and `/authorize?`, followed by a query. Read back, the query gives the merged parameters pair for pair, in order, each value in string form. |
| AuthUrl.FreshParams | index.js:192-197 | Arguments that repeat no key and avoid the base keys are appended after the base. |
| AuthUrl.FreshArgsURL | index.js:191-202 | For such arguments the query reads back as `response_type=token`, the key, and then the arguments in order. |
| Rest.ParseRestArgs | index.js:204-212 | A function in the parameters position becomes the success handler, the handlers shift one place and the parameters become `{}`. Leading slashes leave the path. A path that is not a string throws. |
| Rest.RawPairs | index.js:82 | The query has one `key=value` piece per property of the data, in order, with the value's string form and no encoding. |
| Rest.RestCall | index.js:61-85 | A request is built exactly when the path is a string. It carries the verb, the JSON `Accept` header and CORS mode, and routes failures to the error handler. Its URL starts with the base and the path. It has no body exactly when the verb is HEAD or GET in any case. |
| Rest.GetIsQuery | index.js:79 | `GET` is one of the methods whose data goes into the query. |
| Rest.BodyMethod | index.js:79 | A verb that starts with neither `h` nor `g`, such as `PUT`, `POST` or `DELETE`, sends its data in a body. |
| Rest.HttpGet | index.js:226-228 | `get` is `rest` with the verb `GET`, so `Rest.RestCall` and `Rest.QueryRequest` apply to it. It succeeds exactly when the path is a string, and then sends a GET with no body. |
| Rest.HttpPut | index.js:230-232 | `put` is `rest` with the verb `PUT`, so `Rest.RestCall` and `Rest.BodyRequest` apply to it. It succeeds exactly when the path is a string, and then sends a PUT with a body. |
| Rest.HttpPost | index.js:234-236 | `post` is `rest` with the verb `POST`, so `Rest.RestCall` and `Rest.BodyRequest` apply to it. It succeeds exactly when the path is a string, and then sends a POST with a body. |
| Rest.HttpDelete | index.js:238-240 | `delete` is `rest` with the verb `DELETE`, so `Rest.RestCall` and `Rest.BodyRequest` apply to it. It succeeds exactly when the path is a string, and then sends a DELETE with a body. |
| Rest.RequestDataMerge | index.js:72-77 | The request data holds `key` then `token`, then the caller's new keys in order. A caller's value wins over the credentials. |
| Rest.QueryRequest | index.js:61-85 | HEAD and GET, in any case, send no body. The URL is the base, the path, `?`, and the data's raw `k=v` pieces joined by `&`. The pieces split back one per property when nothing holds an `&`. Failures go to the error handler. |
| Rest.BodyRequest | index.js:61-85 | Other methods put no query on the URL. The body is the JSON object of the request data, and each member is the JSON form of the merged value. |
| Rest.PathMustBeString | index.js:210 | A path that is not a string throws before any request. |
| Authorization.PersistToken | index.js:121-125 | The token's string form is stored only when persisting and a token is held. Otherwise storage is unchanged. No slot other than the token slot is added or changed. |
| Authorization.MergeOptions | index.js:106-116 | The merged options keep every default key, and have at most as many properties as the defaults and the caller's options together. |
| Authorization.TruthyKeys | index.js:142 | The filter keeps exactly the keys whose value is truthy, and no more keys than there are properties. |
| Authorization.TruthyKeysSingle | index.js:142 | One property yields its key when its value is truthy, and nothing otherwise. |
| Authorization.TruthyKeysAppend | index.js:142 | The filter of two property lists in a row is the filter of the first followed by the filter of the second. With the single case, this fixes the order: truthy keys keep the order of the properties. |
| Authorization.ScopeString | index.js:141-142 | Building the scope fails, because `Object.keys` throws, exactly when the scope is null or undefined. |
| Authorization.Prompt | index.js:137-187 | Given the client after token recovery, which holds no token, the attempt never resolves. It keeps that client as it is and changes neither storage nor the fragment. The recovered client may hold `undefined` after an empty storage read. |
| Authorization.Authorize | index.js:103-189 | The key never changes. The attempt resolves exactly when the client ends up holding a token, and then the fragment loses its first token match. An attempt that does not resolve leaves storage and the fragment unchanged. |
| Authorization.ReceiveMessage | index.js:159-176 | The listener ignores exactly the messages not sent by the endpoint from the opened window. On a trusted message it resolves exactly when the data is truthy and contains 64 hex digits, and then takes the whole data as the token; otherwise the token becomes null and the attempt rejects. It writes storage only when persisting a resolved token, and then it writes that token. It adds no slot other than the token slot, and every other slot keeps its value. |
| Authorization.Listen | index.js:159-177 | An attempt settled by a run of messages is settled by one of them, a trusted one, as the listener would settle it on that message alone. |
| AuthorizationProps.MergeOptionsGet | index.js:106-116 | Each option is the caller's when given and the default otherwise. Defaults keep their order, with the caller's new keys after them. Without options, the defaults stand. |
| AuthorizationProps.DefaultValues | index.js:106-116 | The defaults are redirect, persist, interactive, the read-only scope and `30days`. There is no default `name`. |
| AuthorizationProps.DefaultScopeIsRead | index.js:110-114 | The default scope string is `read`. |
| AuthorizationProps.TokenSource | index.js:117-130 | The token comes from the fragment if it matches, else from the client. Only when persisting with no token held is it read from storage. The key never changes. |
| AuthorizationProps.FragmentTokenWins | index.js:117-136 | A token in the fragment is used even over a held token. The attempt resolves, the first match leaves the fragment, and the token is stored exactly when persisting. |
| AuthorizationProps.StorageUnreadUnlessNeeded | index.js:126-130 | Storage is read only when persisting with no token from the fragment or the client. |
| AuthorizationProps.StorageWrites | index.js:121-136 | Only a persisting attempt that resolves changes storage. It writes the token's string form into the token slot and nothing else. |
| AuthorizationProps.NonInteractiveRejects | index.js:137-139 | A non-interactive attempt either resolves or rejects. Without a token it rejects and leaves storage and the fragment alone. The client's token may still have become `undefined` through an empty storage read. |
| AuthorizationProps.EmptyStorageReadKept | index.js:126-130 | A persisting attempt of a new client that finds no token in the fragment or storage does not resolve. It leaves storage and the fragment alone, but the client's token becomes `undefined`. |
| AuthorizationProps.NullScopeRejects | index.js:141 | An interactive attempt with a null or undefined scope rejects, because `Object.keys` throws. |
| AuthorizationProps.ScopeKeys | index.js:141-142 | The scope string is empty without truthy keys. Otherwise, split at commas, it gives back the filtered keys in property order (see `Authorization.TruthyKeysAppend`) when no key holds a comma. |
| AuthorizationProps.RedirectArgsFresh | index.js:180-186 | The redirect arguments repeat no key and avoid the base keys. |
| AuthorizationProps.PopupArgsFresh | index.js:152-158 | The popup arguments repeat no key and avoid the base keys. |
| AuthorizationProps.RedirectQuery | index.js:180-186 | The redirect URL reads back as `response_type`, `key`, `redirect_uri`, `callback_method=fragment`, `scope`, `expiration` and `name`, in this order, each in string form. |
| AuthorizationProps.PopupQuery | index.js:152-158 | The popup URL reads back as `response_type`, `key`, `return_url`, `callback_method=postMessage`, `scope`, `expiration` and `name`, in this order. |
| AuthorizationProps.RedirectURL | index.js:179-186 | An interactive, non-popup attempt without a token, with a scope object, navigates to the authorization URL built from the redirect arguments. |
| AuthorizationProps.PopupURL | index.js:144-178 | The popup variant opens the URL built from the popup arguments. It registers a listener that trusts the opened window and remembers whether to persist. |
| AuthorizationProps.DefaultRedirect | index.js:103-186 | A new client with no options, no stored token and no token in the fragment redirects with scope `read`, expiration `30days` and name `undefined`. |
| AuthorizationProps.ReloadRecovers | index.js:121-131 | A token that a persisting attempt resolved with is found by a new client, through storage, without the fragment. |
| AuthorizationProps.SilentAfterDeauthorize | index.js:98-139 | After `deauthorize`, a non-interactive attempt with no token in the fragment rejects. |
| AuthorizationProps.ListenFirstTrusted | index.js:159-177 | The listener stays registered exactly when no message is trusted. The first trusted message alone decides the outcome. |
| AuthorizationProps.SpoofedThenGenuine | index.js:159-171 | A forged message before the genuine one changes nothing. |
| AuthorizationProps.UnanchoredToken | index.js:167-168 | Data holding 64 hex digits anywhere is accepted, and the whole data becomes the token. |
| Scenarios.CredentialsQuery | index.js:72-83 | A GET without parameters sends `key=<key>&token=<token>`. |
| Scenarios.GetAfterEmptyStorageRead | index.js:72-83 | After an attempt with the default options, which persist, on an empty store and an empty fragment, a GET without parameters sends `key=abc&token=undefined`. |
| Scenarios.GetWithoutToken | index.js:61-85 | `get("boards")` on a new client requests `https://api.trello.com/1/boards?key=abc&token=null`. |
| Scenarios.OneParameterData | index.js:72-77 | An extra parameter follows the key and the token. |
| Scenarios.OneParameterQuery | index.js:82-83 | The extra parameter is the third raw piece of the query. |
| Scenarios.GetSendsRawValues | index.js:61-85 | A space in a GET parameter goes into the URL unencoded. |
| Scenarios.SpaceIsEncoded | index.js:199 | The authorization URL writes a space as `%20`. |
| Scenarios.BareTokenFragment | index.js:117-133 | `#token=<64 hex>` yields the token, and stripping leaves an empty fragment. |
| Scenarios.TokenAmongOtherParameters | index.js:117-133 | Between other parameters, only the token and its leading `&` are removed. |
| Scenarios.ShortTokenIgnored | index.js:117-120 | A token shorter than 64 digits is not recovered. |

## Left out

- Network and promises: `fetch`, `response.json()` and the promise plumbing are not modelled. `Rest.RestCall` stops at the request and the error handler handed to `.catch`.
- The success handler that `parseRestArgs` returns is parsed but never used by `rest`. The model keeps it in `RestArgs` and uses it nowhere.
- The transport fallback `this.fetch || window.fetch` is left out, because the transport is not modelled.
- The `openLink` option is left out for the same reason. The opened window is an input of the environment.
- Popup window geometry (`screenX`, `innerWidth`, the feature string) and the `setTimeout` that closes the popup are left out, because they do not affect the outcome.
- Navigation and event-listener mechanics are left out. A redirect is the outcome `Redirect(url)`, and a registered listener is the pending value that `ReceiveMessage` and `Listen` consume.
- The page origin is an input. The origin regex applied to `window.location` is not modelled.
- `localStorage` is a map from names to strings, with no quota and no exceptions.
- `version()` and `key()` are left out: in the source, the constructor's instance fields shadow these methods. `setKey`, `token()` and `setToken` are plain field access, covered by the `Client` record.
- Numbers are integers. Floating point, `NaN` and the textual form of non-integers are not modelled.
- Js.ToString: writes every integer as exact decimal digits, but JavaScript writes integers of magnitude 10^21 or more in exponent form (`1e+21`). The model's text is exact only below 10^21. So the popup's hex test (`ReceiveMessage`) accepts a number with 64 or more digits that the source rejects. The text stored for a token, and a number's value in a GET query, differ in the same way for such numbers.
- Integer-like keys, which JavaScript enumerates before other keys, are not modelled. Properties keep insertion order.
- Arrays, and objects with their own `toString`, are not modelled. An object converts to `[object Object]`.
- `JSON.stringify` is modelled as a JSON value, not as text. Quoting and escaping are left out.
- Strings are sequences of Unicode scalar values. UTF-16 code units and lone surrogates, on which `encodeURIComponent` throws, do not arise.
- Text.LowerAscii: folds ASCII letters only, because `toLowerCase` also folds non-ASCII letters. For the comparison with `head` and `get` this makes no difference.
- In `isReady`, callbacks' return values and exceptions are left out. Calls are recorded as invocations, in order.
- In `waitUntil`, callbacks' return values and exceptions are left out in the same way.
- Names inherited through the prototype of the registries' plain objects (for example `constructor`) are not modelled. The registries are maps.

=== FILE: authorization.dfy ===
/**
  `authorize(options)` as a step function, and the popup's message listener
  as a second transition.

  One call of `Authorize` runs the promise executor to the point where it
  resolves, rejects, navigates away or waits for a message. The browser is
  passed in as plain values: the location fragment and URL, the page origin
  and the window the popup opener returns.
 */
module Authorization {

  import opened Wrappers
  import opened Js
  import opened Text
  import opened TokenPattern
  import opened StorageAdapter
  import opened TrelloClient
  import opened AuthUrl

  const DefaultScope: Props := [("read", Bool(true)), ("write", Bool(false)), ("account", Bool(false))]

  const Defaults: Props := [
    ("type", Str("redirect")),
    ("persist", Bool(true)),
    ("interactive", Bool(true)),
    ("scope", Obj(DefaultScope)),
    ("expiration", Str("30days"))
  ]

  /** `Object.assign({defaults}, userOpts)`: a shallow merge, so a caller's
      `scope` replaces the default scope object as a whole. */
  function MergeOptions(userOpts: Value): (opts: Props)
    ensures Keys(Defaults) <= Keys(opts)
    ensures |opts| <= |Defaults| + |SourceProps(userOpts)|
  {
    Assign(Defaults, SourceProps(userOpts))
  }

  /** `opts.persist` is truthy. */
  predicate Persists(userOpts: Value) {
    Truthy(Get(MergeOptions(userOpts), "persist"))
  }

  /** A window as the page refers to it; `NoWindow` when the opener returned none. */
  datatype WindowRef = NoWindow | Window(id: nat)

  /** What the executor reads from the browser. */
  datatype Env = Env(hash: string, href: string, origin: Value, popupWindow: WindowRef)

  /** A registered popup listener: the window it trusts and whether to persist. */
  datatype Pending = Pending(authWindow: WindowRef, persist: bool)

  datatype Effect =
    | Resolved
    | Rejected
    | Redirect(url: string)
    | Popup(url: string, listener: Pending)

  /** The client, the store, the value assigned to `location.hash` (if any)
      and what became of the attempt. */
  datatype Step = Step(client: Client, store: Storage, hash: Option<string>, effect: Effect)

  /** The `persistToken` closure. */
  function PersistToken(persist: bool, token: Value, store: Storage): (r: Storage)
    ensures persist && !IsNullish(token) ==> ReadStorage(r, "token") == Str(ToString(token))
    ensures !(persist && !IsNullish(token)) ==> r == store
    ensures forall k :: k != Slot("token") && k in store ==> k in r && r[k] == store[k]
    ensures r.Keys <= store.Keys + {Slot("token")}
  {
    if persist && !IsNullish(token) then WriteStorage(store, "token", token) else store
  }

  /** The keys of `ps` whose value is truthy, in order. */
  function TruthyKeys(ps: Props): (ks: seq<string>)
    ensures |ks| <= |ps|
    ensures forall k :: k in ks <==> exists i :: 0 <= i < |ps| && ps[i].0 == k && Truthy(ps[i].1)
  {
    if ps == [] then []
    else
      var rest := TruthyKeys(ps[1..]);
      assert forall i :: 1 <= i < |ps| ==> ps[i] == ps[1..][i - 1];
      if Truthy(ps[0].1) then [ps[0].0] + rest else rest
  }

  /** One property contributes its key exactly when its value is truthy. */
  lemma TruthyKeysSingle(p: (string, Value))
    ensures TruthyKeys([p]) == if Truthy(p.1) then [p.0] else []
  {
    assert [p][1..] == [];
  }

  /** Filtering works piece by piece: the truthy keys of a concatenation are
      those of the first part followed by those of the second, so the keys
      keep their order. */
  lemma {:induction false} TruthyKeysAppend(a: Props, b: Props)
    ensures TruthyKeys(a + b) == TruthyKeys(a) + TruthyKeys(b)
    decreases |a|
  {
    if a != [] {
      var head := if Truthy(a[0].1) then [a[0].0] else [];
      assert (a + b)[0] == a[0];
      assert (a + b)[1..] == a[1..] + b;
      assert TruthyKeys(a + b) == head + TruthyKeys(a[1..] + b);
      assert TruthyKeys(a) == head + TruthyKeys(a[1..]);
      TruthyKeysAppend(a[1..], b);
      assert head + (TruthyKeys(a[1..]) + TruthyKeys(b)) == (head + TruthyKeys(a[1..])) + TruthyKeys(b);
    } else {
      assert a + b == b;
    }
  }

  /** `Object.keys(scope).filter(key => scope[key]).join(',')`; `None` where
      `Object.keys` throws, on `null` and `undefined`. */
  function ScopeString(scope: Value): (r: Option<string>)
    ensures r.None? <==> IsNullish(scope)
  {
    match OwnProps(scope)
    case None => None
    case Some(ps) => Some(Join(TruthyKeys(ps), ','))
  }

  function PopupArgs(origin: Value, scope: string, opts: Props): Props {
    [ ("return_url", origin),
      ("callback_method", Str("postMessage")),
      ("scope", Str(scope)),
      ("expiration", Get(opts, "expiration")),
      ("name", Get(opts, "name")) ]
  }

  function RedirectArgs(href: string, scope: string, opts: Props): Props {
    [ ("redirect_uri", Str(href)),
      ("callback_method", Str("fragment")),
      ("scope", Str(scope)),
      ("expiration", Get(opts, "expiration")),
      ("name", Get(opts, "name")) ]
  }

  /** The token after fragment recovery: the first match's capture, else the held token. */
  function RecoveredToken(c: Client, hash: string): Value {
    match FindToken(hash)
    case Some(m) => Str(m.capture)
    case None => c.token
  }

  /** The token after the storage fallback, read only when persisting and none is held. */
  function AvailableToken(c: Client, store: Storage, opts: Props, hash: string): Value {
    var token := RecoveredToken(c, hash);
    if Truthy(Get(opts, "persist")) && IsNullish(token) then ReadStorage(store, "token") else token
  }

  /** The executor past the token checks, with no token held: reject when
      not interactive or when the scope has no keys to list, otherwise open
      the popup or navigate. Neither storage nor the fragment is touched. */
  function Prompt(c: Client, store: Storage, userOpts: Value, env: Env): (s: Step)
    requires !Authorized(c)
    ensures s.client == c && s.store == store && s.hash == None
    ensures s.effect != Resolved
  {
    var opts := MergeOptions(userOpts);
    if !Truthy(Get(opts, "interactive")) then
      Step(c, store, None, Rejected)
    else
      match ScopeString(Get(opts, "scope"))
      case None => Step(c, store, None, Rejected)
      case Some(scope) =>
        if Get(opts, "type") == Str("popup") then
          var url := AuthorizeURL(c.key, PopupArgs(env.origin, scope, opts));
          Step(c, store, None, Popup(url, Pending(env.popupWindow, Persists(userOpts))))
        else
          Step(c, store, None, Redirect(AuthorizeURL(c.key, RedirectArgs(env.href, scope, opts))))
  }

  /** One run of `authorize(userOpts)`'s executor: recover a token, and
      resolve with it or prompt for one. */
  function Authorize(c: Client, store: Storage, userOpts: Value, env: Env): (s: Step)
    ensures s.client.key == c.key
    ensures s.effect == Resolved <==> Authorized(s.client)
    ensures s.effect == Resolved ==> s.hash == Some(StripToken(env.hash))
    ensures s.effect != Resolved ==> s.store == store && s.hash == None
  {
    var c' := c.(token := AvailableToken(c, store, MergeOptions(userOpts), env.hash));
    if Authorized(c') then
      Step(c', PersistToken(Persists(userOpts), c'.token, store), Some(StripToken(env.hash)), Resolved)
    else
      Prompt(c', store, userOpts, env)
  }

  /** A `message` event as the listener sees it. */
  datatype Message = Message(origin: string, source: WindowRef, data: Value)

  /** The listener's reaction. `Ignored` keeps it registered; `Accepted`
      removes it and settles the attempt. */
  datatype Reception =
    | Ignored
    | Accepted(token: Value, store: Storage, resolved: bool)

  /** A message the listener acts on: sent by the authorization endpoint
      from the window it opened. */
  predicate Trusted(p: Pending, m: Message) {
    m.origin == AuthEndpoint && m.source == p.authWindow
  }

  /** The `receiveMessage` listener. An accepted message settles the attempt
      the way `authorize` settles it: resolved exactly when a token is held,
      the store written only when persisting a resolved token. */
  function ReceiveMessage(p: Pending, store: Storage, m: Message): (r: Reception)
    ensures r.Ignored? <==> !Trusted(p, m)
    ensures r.Accepted? ==> (r.resolved <==> !IsNullish(r.token))
    ensures r.Accepted? ==> (r.resolved <==> Truthy(m.data) && ContainsHexRun(ToString(m.data)))
    ensures r.Accepted? ==> r.token == if r.resolved then m.data else Null
    ensures r.Accepted? && r.store != store ==> p.persist && r.resolved
    ensures r.Accepted? && r.resolved && p.persist ==> ReadStorage(r.store, "token") == Str(ToString(m.data))
    ensures r.Accepted? ==> r.store.Keys <= store.Keys + {Slot("token")}
    ensures r.Accepted? ==> forall k :: k in store && k != Slot("token") ==> k in r.store && r.store[k] == store[k]
  {
    if !Trusted(p, m) then Ignored
    else if Truthy(m.data) && ContainsHexRun(ToString(m.data)) then
      Accepted(m.data, PersistToken(p.persist, m.data, store), true)
    else
      Accepted(Null, store, false)
  }

  /** A registered listener fed a run of messages: the first one it accepts
      settles the attempt and unregisters it, so later ones have no effect. */
  function Listen(p: Pending, store: Storage, msgs: seq<Message>): (r: Reception)
    ensures r.Accepted? ==> exists i :: 0 <= i < |msgs| && Trusted(p, msgs[i]) && r == ReceiveMessage(p, store, msgs[i])
  {
    if msgs == [] then Ignored
    else
      match ReceiveMessage(p, store, msgs[0])
      case Ignored =>
        var r := Listen(p, store, msgs[1..]);
        assert forall i :: 1 <= i < |msgs| ==> msgs[i] == msgs[1..][i - 1];
        r
      case r => r
  }
}

=== FILE: authorization_props.dfy ===
/**
  What one run of `authorize` does, stated against the step function: where
  the token comes from, when storage is read and written, when the attempt
  resolves, and what the authorization URL of a redirect or a popup reads
  back as. Then the popup listener over a run of messages.
 */
module AuthorizationProps {

  import opened Wrappers
  import opened Js
  import opened Text
  import opened TokenPattern
  import opened StorageAdapter
  import opened TrelloClient
  import opened AuthUrl
  import opened Authorization

  /** Each option is the caller's last assignment when the caller gives it,
      the default otherwise; the defaults keep their order and the caller's
      new keys follow. Without caller options the defaults stand as they are. */
  lemma MergeOptionsGet(userOpts: Value, k: string)
    ensures Get(MergeOptions(userOpts), k) ==
      if k in Keys(SourceProps(userOpts)) then GetLast(SourceProps(userOpts), k) else Get(Defaults, k)
    ensures Keys(MergeOptions(userOpts)) == Keys(Defaults) + NewKeys(Keys(Defaults), Keys(SourceProps(userOpts)))
    ensures IsNullish(userOpts) ==> MergeOptions(userOpts) == Defaults
  {
    AssignGet(Defaults, SourceProps(userOpts), k);
    AssignKeys(Defaults, SourceProps(userOpts));
  }

  /** The token the attempt ends with: the fragment's, else the held one,
      else (only when persisting and none is held) the stored one. The key
      never changes. */
  lemma TokenSource(c: Client, store: Storage, userOpts: Value, env: Env)
    ensures var s := Authorize(c, store, userOpts, env);
      && s.client.key == c.key
      && s.client.token ==
           if FindToken(env.hash).Some? then Str(FindToken(env.hash).value.capture)
           else if Persists(userOpts) && IsNullish(c.token) then ReadStorage(store, "token")
           else c.token
  {
  }

  /** A token in the fragment wins over the held token: the attempt resolves
      with it, the first match leaves the fragment, and it is stored exactly
      when persisting. */
  lemma FragmentTokenWins(c: Client, store: Storage, userOpts: Value, env: Env)
    requires FindToken(env.hash).Some?
    ensures var s := Authorize(c, store, userOpts, env);
      var t := FindToken(env.hash).value.capture;
      && s.client == Client(c.key, Str(t))
      && s.effect == Resolved
      && s.hash == Some(StripToken(env.hash))
      && (Persists(userOpts) ==> ReadStorage(s.store, "token") == Str(t))
      && (!Persists(userOpts) ==> s.store == store)
  {
    TokenSource(c, store, userOpts, env);
  }

  /** Storage is consulted only when persisting with no token from the
      fragment or the client: otherwise two stores lead to the same client,
      fragment and outcome. */
  lemma StorageUnreadUnlessNeeded(c: Client, s1: Storage, s2: Storage, userOpts: Value, env: Env)
    requires FindToken(env.hash).Some? || !Persists(userOpts) || !IsNullish(c.token)
    ensures var a, b := Authorize(c, s1, userOpts, env), Authorize(c, s2, userOpts, env);
      a.client == b.client && a.hash == b.hash && a.effect == b.effect
  {
    var opts := MergeOptions(userOpts);
    var t := AvailableToken(c, s1, opts, env.hash);
    assert t == AvailableToken(c, s2, opts, env.hash);
    var c' := c.(token := t);
    if !Authorized(c') {
      PromptStoreFree(c', s1, s2, userOpts, env);
    }
  }

  /** What the prompt does never depends on the store. */
  lemma PromptStoreFree(c: Client, s1: Storage, s2: Storage, userOpts: Value, env: Env)
    requires !Authorized(c)
    ensures Prompt(c, s1, userOpts, env).effect == Prompt(c, s2, userOpts, env).effect
  {
  }

  /** Only a persisting attempt that resolves touches storage, and then it
      writes the token's string form under the token slot and nothing else. */
  lemma StorageWrites(c: Client, store: Storage, userOpts: Value, env: Env)
    ensures var s := Authorize(c, store, userOpts, env);
      && (s.store != store ==> Persists(userOpts) && s.effect == Resolved)
      && (s.effect == Resolved && Persists(userOpts) ==>
            ReadStorage(s.store, "token") == Str(ToString(s.client.token)))
      && s.store.Keys <= store.Keys + {Slot("token")}
      && forall k :: k in store && k != Slot("token") ==> k in s.store && s.store[k] == store[k]
  {
    var s := Authorize(c, store, userOpts, env);
    if s.effect == Resolved {
      assert s.store == PersistToken(Persists(userOpts), s.client.token, store);
    }
  }

  /** Without `interactive` the attempt never navigates or opens a window:
      with no token it rejects and leaves storage and the fragment alone. */
  lemma NonInteractiveRejects(c: Client, store: Storage, userOpts: Value, env: Env)
    requires !Truthy(Get(MergeOptions(userOpts), "interactive"))
    ensures var s := Authorize(c, store, userOpts, env);
      && (s.effect == Resolved || s.effect == Rejected)
      && (!Authorized(s.client) ==> s.effect == Rejected && s.store == store && s.hash == None)
  {
  }

  /** A persisting attempt that finds no token anywhere still assigns the
      empty storage read to the client: its token turns from `null` into
      `undefined`, and the attempt does not resolve. */
  lemma EmptyStorageReadKept(key: Value, store: Storage, userOpts: Value, env: Env)
    requires Persists(userOpts)
    requires Slot("token") !in store
    requires FindToken(env.hash).None?
    ensures var s := Authorize(NewClient(key), store, userOpts, env);
      && s.client == Client(key, Undefined)
      && s.effect != Resolved && s.store == store && s.hash == None
  {
    TokenSource(NewClient(key), store, userOpts, env);
  }

  /** An interactive attempt whose scope is `null` or `undefined` rejects:
      `Object.keys` throws inside the executor. */
  lemma NullScopeRejects(c: Client, store: Storage, userOpts: Value, env: Env)
    requires !Authorized(Authorize(c, store, userOpts, env).client)
    requires IsNullish(Get(MergeOptions(userOpts), "scope"))
    ensures var s := Authorize(c, store, userOpts, env);
      s.effect == Rejected && s.store == store && s.hash == None
  {
  }

  /** The scope string lists the scope's truthy keys: empty when there are
      none, and otherwise split at commas it gives them back in order, as
      long as no key holds a comma. */
  lemma ScopeKeys(scope: Value)
    requires !IsNullish(scope)
    ensures var ks := TruthyKeys(OwnProps(scope).value);
      && ScopeString(scope).Some?
      && (ks == [] ==> ScopeString(scope).value == "")
      && (ks != [] && (forall i :: 0 <= i < |ks| ==> ',' !in ks[i]) ==> Split(ScopeString(scope).value, ',') == ks)
  {
    var ks := TruthyKeys(OwnProps(scope).value);
    if ks != [] && (forall i :: 0 <= i < |ks| ==> ',' !in ks[i]) {
      SplitJoin(ks, ',');
    }
  }

  /** The default scope asks for reading only. */
  lemma DefaultScopeIsRead()
    ensures ScopeString(Obj(DefaultScope)) == Some("read")
  {
    assert TruthyKeys(DefaultScope) == ["read"];
  }

  /** Five properties under the keys `authorize` passes, the first one
      naming where to come back to. */
  lemma {:induction false} CallbackArgsFresh(args: Props, first: string)
    requires |args| == 5 && args[0].0 == first
    requires first == "redirect_uri" || first == "return_url"
    requires args[1].0 == "callback_method" && args[2].0 == "scope"
    requires args[3].0 == "expiration" && args[4].0 == "name"
    ensures WellFormed(args)
    ensures forall i :: 0 <= i < |args| ==> PlainKey(args[i].0) && args[i].0 != "response_type" && args[i].0 != "key"
  {
    CallbackKeysPlain();
    DistinctWellFormed(args);
    forall i | 0 <= i < |args|
      ensures PlainKey(args[i].0) && args[i].0 != "response_type" && args[i].0 != "key"
    {
      assert args[i].0 in [first, "callback_method", "scope", "expiration", "name"];
    }
  }

  lemma CallbackKeysPlain()
    ensures PlainKey("redirect_uri") && PlainKey("return_url") && PlainKey("callback_method")
    ensures PlainKey("scope") && PlainKey("expiration") && PlainKey("name")
  {
  }

  /** The arguments `authorize` passes for a redirect. */
  lemma RedirectArgsFresh(href: string, scope: string, opts: Props)
    ensures var args := RedirectArgs(href, scope, opts);
      && WellFormed(args)
      && forall i :: 0 <= i < |args| ==> PlainKey(args[i].0) && args[i].0 != "response_type" && args[i].0 != "key"
  {
    CallbackArgsFresh(RedirectArgs(href, scope, opts), "redirect_uri");
  }

  /** The arguments `authorize` passes for a popup. */
  lemma PopupArgsFresh(origin: Value, scope: string, opts: Props)
    ensures var args := PopupArgs(origin, scope, opts);
      && WellFormed(args)
      && forall i :: 0 <= i < |args| ==> PlainKey(args[i].0) && args[i].0 != "response_type" && args[i].0 != "key"
  {
    CallbackArgsFresh(PopupArgs(origin, scope, opts), "return_url");
  }

  /** The redirect's URL reads back as `response_type`, the key, the URL to
      come back to, the fragment callback, the scope string, and the
      `expiration` and `name` options in string form (so a missing name
      reads `undefined`), in this order. */
  lemma RedirectQuery(key: Value, href: string, scope: string, opts: Props)
    ensures var url := AuthorizeURL(key, RedirectArgs(href, scope, opts));
      && |AuthorizePrefix| <= |url|
      && url[..|AuthorizePrefix|] == AuthorizePrefix
      && ParseQuery(url[|AuthorizePrefix|..]) == Some(
           [("response_type", "token"), ("key", ToString(key))] + [
           ("redirect_uri", href), ("callback_method", "fragment"), ("scope", scope),
           ("expiration", ToString(Get(opts, "expiration"))), ("name", ToString(Get(opts, "name")))])
  {
    RedirectArgsFresh(href, scope, opts);
    FreshArgsURL(key, RedirectArgs(href, scope, opts));
    RedirectPairs(href, scope, opts);
  }

  lemma RedirectPairs(href: string, scope: string, opts: Props)
    ensures StringPairs(RedirectArgs(href, scope, opts)) == [
      ("redirect_uri", href), ("callback_method", "fragment"), ("scope", scope),
      ("expiration", ToString(Get(opts, "expiration"))), ("name", ToString(Get(opts, "name")))]
  {
  }

  /** The popup's URL reads back the same way, with the page's origin to
      post back to and the `postMessage` callback. */
  lemma PopupQuery(key: Value, origin: Value, scope: string, opts: Props)
    ensures var url := AuthorizeURL(key, PopupArgs(origin, scope, opts));
      && |AuthorizePrefix| <= |url|
      && url[..|AuthorizePrefix|] == AuthorizePrefix
      && ParseQuery(url[|AuthorizePrefix|..]) == Some(
           [("response_type", "token"), ("key", ToString(key))] + [
           ("return_url", ToString(origin)), ("callback_method", "postMessage"), ("scope", scope),
           ("expiration", ToString(Get(opts, "expiration"))), ("name", ToString(Get(opts, "name")))])
  {
    PopupArgsFresh(origin, scope, opts);
    FreshArgsURL(key, PopupArgs(origin, scope, opts));
    PopupPairs(origin, scope, opts);
  }

  lemma PopupPairs(origin: Value, scope: string, opts: Props)
    ensures StringPairs(PopupArgs(origin, scope, opts)) == [
      ("return_url", ToString(origin)), ("callback_method", "postMessage"), ("scope", scope),
      ("expiration", ToString(Get(opts, "expiration"))), ("name", ToString(Get(opts, "name")))]
  {
  }

  /** With no token and an interactive, non-popup attempt whose scope is an
      object, the page is sent to the authorization endpoint with the
      redirect arguments; nothing is stored and the fragment stays. */
  lemma RedirectURL(c: Client, store: Storage, userOpts: Value, env: Env)
    requires !Authorized(Authorize(c, store, userOpts, env).client)
    requires Truthy(Get(MergeOptions(userOpts), "interactive"))
    requires !IsNullish(Get(MergeOptions(userOpts), "scope"))
    requires Get(MergeOptions(userOpts), "type") != Str("popup")
    ensures var s := Authorize(c, store, userOpts, env);
      var opts := MergeOptions(userOpts);
      && s.store == store && s.hash == None
      && s.effect == Redirect(AuthorizeURL(c.key, RedirectArgs(env.href, ScopeString(Get(opts, "scope")).value, opts)))
  {
  }

  /** The popup variant: the popup's URL, and a listener that trusts the
      opened window and remembers whether to persist. Nothing is stored yet. */
  lemma PopupURL(c: Client, store: Storage, userOpts: Value, env: Env)
    requires !Authorized(Authorize(c, store, userOpts, env).client)
    requires Truthy(Get(MergeOptions(userOpts), "interactive"))
    requires !IsNullish(Get(MergeOptions(userOpts), "scope"))
    requires Get(MergeOptions(userOpts), "type") == Str("popup")
    ensures var s := Authorize(c, store, userOpts, env);
      var opts := MergeOptions(userOpts);
      && s.store == store && s.hash == None
      && s.effect == Popup(AuthorizeURL(c.key, PopupArgs(env.origin, ScopeString(Get(opts, "scope")).value, opts)),
                           Pending(env.popupWindow, Persists(userOpts)))
  {
  }

  /** The default options, read one by one; there is no default `name`. */
  lemma DefaultValues()
    ensures Get(Defaults, "type") == Str("redirect")
    ensures Get(Defaults, "persist") == Bool(true)
    ensures Get(Defaults, "interactive") == Bool(true)
    ensures Get(Defaults, "scope") == Obj(DefaultScope)
    ensures Get(Defaults, "expiration") == Str("30days")
    ensures Get(Defaults, "name") == Undefined
  {
    var d := Defaults;
    DistinctWellFormed(d);
    GetIndex(d, 0);
    GetIndex(d, 1);
    GetIndex(d, 2);
    GetIndex(d, 3);
    GetIndex(d, 4);
    NotInKeys(d, "name");
  }

  /** A new client with no options, nothing stored and no token in the
      fragment redirects asking to read, for thirty days, under the name
      `undefined`. */
  lemma DefaultRedirect(key: Value, store: Storage, env: Env)
    requires Slot("token") !in store
    requires FindToken(env.hash).None?
    ensures var s := Authorize(NewClient(key), store, Undefined, env);
      && s.effect.Redirect?
      && s.store == store
      && |AuthorizePrefix| <= |s.effect.url|
      && ParseQuery(s.effect.url[|AuthorizePrefix|..]) == Some(
           [("response_type", "token"), ("key", ToString(key))] + [
           ("redirect_uri", env.href), ("callback_method", "fragment"),
           ("scope", "read"), ("expiration", "30days"), ("name", "undefined")])
  {
    MergeOptionsGet(Undefined, "type");
    DefaultValues();
    DefaultScopeIsRead();
    RedirectURL(NewClient(key), store, Undefined, env);
    RedirectQuery(key, env.href, "read", Defaults);
  }

  /** A token a persisting attempt resolved with is found again by a new
      client after a reload, even without the fragment. */
  lemma ReloadRecovers(c: Client, store: Storage, userOpts: Value, env: Env,
                       key: Value, userOpts2: Value, env2: Env)
    requires Persists(userOpts) && Persists(userOpts2)
    requires Authorize(c, store, userOpts, env).effect == Resolved
    requires Authorize(c, store, userOpts, env).client.token.Str?
    requires FindToken(env2.hash).None?
    ensures var s := Authorize(c, store, userOpts, env);
      var s2 := Authorize(NewClient(key), s.store, userOpts2, env2);
      s2.effect == Resolved && s2.client.token == s.client.token
  {
    StorageWrites(c, store, userOpts, env);
  }

  /** After `deauthorize`, a silent attempt with no token in the fragment
      rejects: neither memory nor storage holds a token any more. */
  lemma SilentAfterDeauthorize(c: Client, store: Storage, userOpts: Value, env: Env)
    requires FindToken(env.hash).None?
    requires !Truthy(Get(MergeOptions(userOpts), "interactive"))
    ensures var (c1, s1) := Deauthorize(c, store);
      var s := Authorize(c1, s1, userOpts, env);
      s.effect == Rejected && s.store == s1 && s.hash == None
  {
  }

  /** A listener settles on the first trusted message and on nothing else:
      it stays registered exactly when no message is trusted. */
  lemma {:induction false} ListenFirstTrusted(p: Pending, store: Storage, msgs: seq<Message>)
    ensures Listen(p, store, msgs).Ignored? <==> forall i :: 0 <= i < |msgs| ==> !Trusted(p, msgs[i])
    ensures forall i :: (0 <= i < |msgs| && Trusted(p, msgs[i]) && (forall j :: 0 <= j < i ==> !Trusted(p, msgs[j]))) ==> (Listen(p, store, msgs) == ReceiveMessage(p, store, msgs[i]))
    decreases |msgs|
  {
    if msgs != [] {
      ListenFirstTrusted(p, store, msgs[1..]);
      assert forall i :: 1 <= i < |msgs| ==> msgs[i] == msgs[1..][i - 1];
    }
  }

  /** A forged message before the genuine one changes nothing: the genuine
      token is accepted. */
  lemma SpoofedThenGenuine(p: Pending, store: Storage, spoof: Message, genuine: Message)
    requires !Trusted(p, spoof) && Trusted(p, genuine)
    requires genuine.data.Str? && HexRunAt(genuine.data.s, 0)
    ensures Listen(p, store, [spoof, genuine])
         == Accepted(genuine.data, PersistToken(p.persist, genuine.data, store), true)
  {
    assert [spoof, genuine][1..] == [genuine];
  }

  /** The popup's test is not anchored: data with anything around a run of
      64 hex digits passes, and the whole of it becomes the token. */
  lemma UnanchoredToken(p: Pending, store: Storage, m: Message, before: string, run: string, after: string)
    requires Trusted(p, m)
    requires HexRunAt(run, 0)
    requires m.data == Str(before + run + after)
    ensures ReceiveMessage(p, store, m) == Accepted(m.data, PersistToken(p.persist, m.data, store), true)
  {
    var s := before + run + after;
    forall j | |before| <= j < |before| + TokenLength
      ensures IsHexDigit(s[j])
    {
      assert s[j] == run[j - |before|];
    }
    assert HexRunAt(s, |before|);
  }
}

=== FILE: authorize_url.dfy ===
/**
  `authorizeURL(args)`: the authorization endpoint's URL, with
  `response_type=token` and the client key first, then the caller's
  arguments, every value percent-encoded and no key encoded.

  `ParseQuery` reads such a query string back; it is the reference the
  builder is proved against.
 */
module AuthUrl {

  import opened Wrappers
  import opened Js
  import opened Text
  import opened UriCodec
  import TrelloClient

  /** `https://trello.com/1/authorize?` */
  const AuthorizePrefix: string :=
    TrelloClient.AuthEndpoint + "/" + IntToString(TrelloClient.Version) + "/authorize?"

  function BaseArgs(key: Value): Props {
    [("response_type", Str("token")), ("key", key)]
  }

  /** The parameter object the URL serialises: the caller's arguments assigned over the base. */
  function AuthorizeParams(key: Value, args: Props): Props {
    Assign(BaseArgs(key), args)
  }

  /** One `key=encodeURIComponent(value)` piece per property. */
  function EncodedPairs(ps: Props): (r: seq<string>)
    ensures |r| == |ps|
    ensures forall i :: 0 <= i < |ps| ==> r[i] == ps[i].0 + "=" + Encode(ToString(ps[i].1))
  {
    if ps == [] then [] else [ps[0].0 + "=" + Encode(ToString(ps[0].1))] + EncodedPairs(ps[1..])
  }

  /** `authorizeURL(args)`: the endpoint, the version and `/authorize?`,
      then the `&`-joined pieces. */
  function AuthorizeURL(key: Value, args: Props): (url: string)
    ensures |AuthorizePrefix| <= |url| && url[..|AuthorizePrefix|] == AuthorizePrefix
  {
    AuthorizePrefix + Join(EncodedPairs(AuthorizeParams(key, args)), '&')
  }

  /** A `k=v` piece split at its first `=`, the value percent-decoded. */
  function ParsePair(piece: string): Option<(string, string)> {
    var i := IndexOf(piece, '=');
    var (k, raw) := if i < 0 then (piece, "") else (piece[..i], piece[i + 1..]);
    match Decode(raw)
    case None => None
    case Some(v) => Some((k, v))
  }

  function ParsePairs(pieces: seq<string>): Option<seq<(string, string)>> {
    if pieces == [] then Some([])
    else
      match (ParsePair(pieces[0]), ParsePairs(pieces[1..]))
      case (Some(p), Some(rest)) => Some([p] + rest)
      case _ => None
  }

  /** A query string read as `&`-separated, percent-encoded pairs. */
  function ParseQuery(q: string): Option<seq<(string, string)>> {
    ParsePairs(Split(q, '&'))
  }

  /** Each property with its value in string form. */
  function StringPairs(ps: Props): (r: seq<(string, string)>)
    ensures |r| == |ps|
    ensures forall i :: 0 <= i < |ps| ==> r[i] == (ps[i].0, ToString(ps[i].1))
  {
    if ps == [] then [] else [(ps[0].0, ToString(ps[0].1))] + StringPairs(ps[1..])
  }

  /** Keys that survive `&`/`=` splitting. */
  predicate PlainKey(k: string) {
    '&' !in k && '=' !in k
  }

  lemma {:induction false} ParseEncodedPairs(ps: Props)
    requires forall i :: 0 <= i < |ps| ==> PlainKey(ps[i].0)
    ensures ParsePairs(EncodedPairs(ps)) == Some(StringPairs(ps))
    ensures forall i :: 0 <= i < |ps| ==> '&' !in EncodedPairs(ps)[i]
    decreases |ps|
  {
    if ps != [] {
      var pieces := EncodedPairs(ps);
      assert pieces == [pieces[0]] + EncodedPairs(ps[1..]);
      ParseEncodedPiece(ps[0].0, ps[0].1);
      ParseEncodedPairs(ps[1..]);
      assert StringPairs(ps) == [(ps[0].0, ToString(ps[0].1))] + StringPairs(ps[1..]);
      assert forall i :: 1 <= i < |ps| ==> pieces[i] == EncodedPairs(ps[1..])[i - 1];
    }
  }

  /** One `key=encodeURIComponent(value)` piece reads back as the key and the
      value's string form, and holds no `&`. */
  lemma ParseEncodedPiece(k: string, v: Value)
    requires PlainKey(k)
    ensures ParsePair(k + "=" + Encode(ToString(v))) == Some((k, ToString(v)))
    ensures '&' !in k + "=" + Encode(ToString(v))
  {
    var e := Encode(ToString(v));
    var piece := k + "=" + e;
    assert IndexOf(piece, '=') == |k| by {
      assert piece[|k|] == '=';
      assert forall j :: 0 <= j < |k| ==> piece[j] == k[j];
    }
    assert piece[..|k|] == k && piece[|k| + 1..] == e;
    DecodeEncode(ToString(v));
  }

  /** The keys of the parameter object are the base keys and the caller's. */
  lemma AuthorizeParamsPlain(key: Value, args: Props)
    requires forall i :: 0 <= i < |args| ==> PlainKey(args[i].0)
    ensures var ps := AuthorizeParams(key, args);
      forall i :: 0 <= i < |ps| ==> PlainKey(ps[i].0)
  {
    var ps := AuthorizeParams(key, args);
    forall i | 0 <= i < |ps|
      ensures PlainKey(ps[i].0)
    {
      KeysIndex(ps, i);
      ParamKeyPlain(key, args, ps[i].0);
    }
  }

  lemma ParamKeyPlain(key: Value, args: Props, k: string)
    requires forall i :: 0 <= i < |args| ==> PlainKey(args[i].0)
    requires k in Keys(AuthorizeParams(key, args))
    ensures PlainKey(k)
  {
    AssignKeyOrigin(BaseArgs(key), args, k);
    if k in Keys(args) {
      var j := KeysMember(args, k);
      assert PlainKey(args[j].0);
    } else {
      BaseKeyPlain(key, k);
    }
  }

  lemma BaseKeyPlain(key: Value, k: string)
    requires k in Keys(BaseArgs(key))
    ensures PlainKey(k)
  {
    assert Keys(BaseArgs(key)) == ["response_type", "key"];
  }

  /** The authorization URL is the endpoint prefix followed by a query that
      reads back, pair for pair and in order, as the parameter object, each
      value in its string form. */
  lemma AuthorizeURLParses(key: Value, args: Props)
    requires forall i :: 0 <= i < |args| ==> PlainKey(args[i].0)
    ensures var url := AuthorizeURL(key, args);
      && |AuthorizePrefix| <= |url|
      && url[..|AuthorizePrefix|] == AuthorizePrefix
      && ParseQuery(url[|AuthorizePrefix|..]) == Some(StringPairs(AuthorizeParams(key, args)))
  {
    var ps := AuthorizeParams(key, args);
    AuthorizeParamsPlain(key, args);
    ParseEncodedPairs(ps);
    AssignKeys(BaseArgs(key), args);
    assert |ps| >= 2;
    SplitJoin(EncodedPairs(ps), '&');
  }

  /** The parameter object holds `response_type` and `key` first (keeping
      their place when a caller overrides them), then the caller's new keys
      in order, each with the last value assigned to it. */
  lemma AuthorizeParamsOrder(key: Value, args: Props)
    ensures Keys(AuthorizeParams(key, args))
         == ["response_type", "key"] + NewKeys(["response_type", "key"], Keys(args))
    ensures forall k ::
      Get(AuthorizeParams(key, args), k) == if k in Keys(args) then GetLast(args, k) else Get(BaseArgs(key), k)
  {
    AssignKeys(BaseArgs(key), args);
    assert Keys(BaseArgs(key)) == ["response_type", "key"];
    forall k
      ensures Get(AuthorizeParams(key, args), k) == if k in Keys(args) then GetLast(args, k) else Get(BaseArgs(key), k)
    {
      AssignGet(BaseArgs(key), args, k);
    }
  }

  /** The string pairs of a concatenation are the concatenated pairs. */
  lemma {:induction false} StringPairsAppend(a: Props, b: Props)
    ensures StringPairs(a + b) == StringPairs(a) + StringPairs(b)
    decreases |a|
  {
    if a != [] {
      assert (a + b)[1..] == a[1..] + b;
      StringPairsAppend(a[1..], b);
    }
  }

  lemma BaseKeysAvoided(key: Value, args: Props)
    requires forall i :: 0 <= i < |args| ==> args[i].0 != "response_type" && args[i].0 != "key"
    ensures forall i :: 0 <= i < |args| ==> args[i].0 !in Keys(BaseArgs(key))
  {
    assert Keys(BaseArgs(key)) == ["response_type", "key"];
  }

  /** Arguments that neither repeat a key nor name a base key are appended
      to the base. */
  lemma FreshParams(key: Value, args: Props)
    requires WellFormed(args)
    requires forall i :: 0 <= i < |args| ==> args[i].0 != "response_type" && args[i].0 != "key"
    ensures AuthorizeParams(key, args) == BaseArgs(key) + args
  {
    BaseKeysAvoided(key, args);
    AssignFresh(BaseArgs(key), args);
  }

  /** Arguments that neither repeat a key nor name a base key follow the
      base pair for pair, so the URL reads back as the base then the
      arguments. */
  lemma FreshArgsURL(key: Value, args: Props)
    requires WellFormed(args)
    requires forall i :: 0 <= i < |args| ==> PlainKey(args[i].0) && args[i].0 != "response_type" && args[i].0 != "key"
    ensures var url := AuthorizeURL(key, args);
      && |AuthorizePrefix| <= |url|
      && url[..|AuthorizePrefix|] == AuthorizePrefix
      && ParseQuery(url[|AuthorizePrefix|..])
         == Some([("response_type", "token"), ("key", ToString(key))] + StringPairs(args))
  {
    FreshParams(key, args);
    StringPairsAppend(BaseArgs(key), args);
    assert StringPairs(BaseArgs(key)) == [("response_type", "token"), ("key", ToString(key))];
    AuthorizeURLParses(key, args);
  }
}

=== FILE: js_value.dfy ===
/**
  JavaScript values as the client sees them, and plain objects as
  insertion-ordered association lists.

  Only the parts of JavaScript semantics the client relies on are modelled:
  truthiness, loose comparison with `null`, string conversion (template
  literals, `encodeURIComponent`, storage writes), own enumerable keys and
  `Object.assign`.
 */
module Js {

  import opened Wrappers

  /** A JavaScript value. Numbers are integers; a function is known by its
      source text, which is what converting it to a string yields. */
  datatype Value =
    | Undefined
    | Null
    | Bool(b: bool)
    | Num(n: int)
    | Str(s: string)
    | Obj(props: Props)
    | Func(source: string)

  /** A plain object: its own enumerable properties in insertion order. */
  type Props = seq<(string, Value)>

  /** `!!v` */
  predicate Truthy(v: Value) {
    match v
    case Undefined => false
    case Null => false
    case Bool(b) => b
    case Num(n) => n != 0
    case Str(s) => s != ""
    case Obj(_) => true
    case Func(_) => true
  }

  /** `v == null` (loose equality): true for `null` and `undefined` only. */
  predicate IsNullish(v: Value) {
    v.Undefined? || v.Null?
  }

  function DigitChar(d: nat): (c: char)
    requires d < 10
    ensures '0' <= c <= '9'
  {
    ('0' as int + d) as char
  }

  predicate IsDigits(s: string) {
    forall i :: 0 <= i < |s| ==> '0' <= s[i] <= '9'
  }

  /** Decimal digits with no leading zero, unless the number is zero itself. */
  predicate CanonicalDecimal(s: string) {
    |s| > 0 && IsDigits(s) && (s[0] == '0' ==> s == "0")
  }

  /** The number a run of decimal digits spells, most significant first. */
  function DecimalValue(s: string): nat
    requires IsDigits(s)
  {
    if s == [] then 0 else 10 * DecimalValue(s[..|s| - 1]) + (s[|s| - 1] as int - '0' as int)
  }

  /** Decimal digits of a natural number, most significant first, with no
      leading zero except for zero itself. */
  function NatToString(n: nat): (r: string)
    ensures CanonicalDecimal(r)
    ensures DecimalValue(r) == n
    ensures r[0] == '0' <==> n == 0
    decreases n
  {
    if n < 10 then [DigitChar(n)]
    else
      var r := NatToString(n / 10) + [DigitChar(n % 10)];
      assert r[..|r| - 1] == NatToString(n / 10);
      r
  }

  /** A run of digits that does not start with `0` spells a positive number. */
  lemma {:induction false} LeadingNonzero(s: string)
    requires |s| > 0 && IsDigits(s) && s[0] != '0'
    ensures DecimalValue(s) >= 1
    ensures |s| >= 2 ==> DecimalValue(s) >= 10
    decreases |s|
  {
    if |s| >= 2 {
      var p := s[..|s| - 1];
      assert p[0] == s[0];
      LeadingNonzero(p);
    }
  }

  /** Canonical decimal text is determined by its value: no other digit
      string without leading zeros spells the same number. */
  lemma {:induction false} DecimalUnique(s: string, t: string)
    requires CanonicalDecimal(s) && CanonicalDecimal(t)
    requires DecimalValue(s) == DecimalValue(t)
    ensures s == t
    decreases |s|
  {
    var v := DecimalValue(s);
    if s[0] != '0' { LeadingNonzero(s); }
    if t[0] != '0' { LeadingNonzero(t); }
    if |s| >= 2 && |t| >= 2 {
      var ps, pt := s[..|s| - 1], t[..|t| - 1];
      assert ps[0] == s[0] && pt[0] == t[0];
      assert DecimalValue(ps) == v / 10 && DecimalValue(pt) == v / 10;
      DecimalUnique(ps, pt);
      assert s[|s| - 1] == t[|t| - 1];
      assert s == ps + [s[|s| - 1]] && t == pt + [t[|t| - 1]];
    } else {
      assert |s| == 1 && |t| == 1;
      assert DecimalValue(s) == s[0] as int - '0' as int;
      assert DecimalValue(t) == t[0] as int - '0' as int;
    }
  }

  /** An integer's decimal text: a minus sign for negatives, then the digits
      of the magnitude. */
  function IntToString(n: int): (r: string)
    ensures |r| > 0
    ensures n >= 0 ==> CanonicalDecimal(r) && DecimalValue(r) == n
    ensures n < 0 ==> r[0] == '-' && CanonicalDecimal(r[1..]) && DecimalValue(r[1..]) == -n
  {
    if n < 0 then
      var r := "-" + NatToString(-n);
      assert r[1..] == NatToString(-n);
      r
    else NatToString(n)
  }

  /** `String(v)` as a template literal or a string-valued sink computes it. */
  function ToString(v: Value): (r: string)
    ensures v.Undefined? ==> r == "undefined"
    ensures v.Null? ==> r == "null"
    ensures v.Bool? ==> r == if v.b then "true" else "false"
    ensures v.Num? && v.n >= 0 ==> CanonicalDecimal(r) && DecimalValue(r) == v.n
    ensures v.Num? && v.n < 0 ==> |r| > 0 && r[0] == '-' && CanonicalDecimal(r[1..]) && DecimalValue(r[1..]) == -v.n
    ensures v.Str? ==> r == v.s
    ensures v.Obj? ==> r == "[object Object]"
    ensures v.Func? ==> r == v.source
  {
    match v
    case Undefined => "undefined"
    case Null => "null"
    case Bool(b) => if b then "true" else "false"
    case Num(n) => IntToString(n)
    case Str(s) => s
    case Obj(_) => "[object Object]"
    case Func(src) => src
  }

  /** The keys of an object, in order. */
  function Keys(ps: Props): (ks: seq<string>)
    ensures |ks| == |ps|
  {
    if ps == [] then [] else [ps[0].0] + Keys(ps[1..])
  }

  lemma {:induction false} KeysIndex(ps: Props, i: nat)
    requires i < |ps|
    ensures Keys(ps)[i] == ps[i].0
  {
    if i > 0 {
      KeysIndex(ps[1..], i - 1);
    }
  }

  /** A key of an object is the key of one of its properties. */
  lemma {:induction false} KeysMember(ps: Props, k: string) returns (i: nat)
    requires k in Keys(ps)
    ensures i < |ps| && ps[i].0 == k
  {
    if ps[0].0 == k {
      i := 0;
    } else {
      var j := KeysMember(ps[1..], k);
      i := j + 1;
    }
  }

  /** No key occurs twice, as in every JavaScript object. */
  predicate WellFormed(ps: Props) {
    ps == [] || (ps[0].0 !in Keys(ps[1..]) && WellFormed(ps[1..]))
  }

  /** `o[k]` for an own property, `undefined` when it is missing. */
  function Get(ps: Props, k: string): (v: Value)
    ensures k !in Keys(ps) ==> v == Undefined
  {
    if ps == [] then Undefined
    else if ps[0].0 == k then ps[0].1
    else Get(ps[1..], k)
  }

  /** The value of the last occurrence of `k`: what a run of assignments
      in order leaves behind. */
  function GetLast(ps: Props, k: string): (v: Value)
    ensures k !in Keys(ps) ==> v == Undefined
  {
    if ps == [] then Undefined
    else if k in Keys(ps[1..]) then GetLast(ps[1..], k)
    else if ps[0].0 == k then ps[0].1
    else Undefined
  }

  /** `o[k] = v`: an existing key keeps its position and takes the new value,
      a new key is appended. */
  function Set(ps: Props, k: string, v: Value): (r: Props)
    ensures Keys(r) == if k in Keys(ps) then Keys(ps) else Keys(ps) + [k]
    ensures Get(r, k) == v
    ensures WellFormed(ps) ==> WellFormed(r)
  {
    if ps == [] then [(k, v)]
    else if ps[0].0 == k then [(k, v)] + ps[1..]
    else
      var rest := Set(ps[1..], k, v);
      assert Keys(ps) == [ps[0].0] + Keys(ps[1..]);
      [ps[0]] + rest
  }

  /** Setting one key leaves every other key's value alone. */
  lemma {:induction false} SetGetOther(ps: Props, k: string, v: Value, other: string)
    requires other != k
    ensures Get(Set(ps, k, v), other) == Get(ps, other)
    decreases |ps|
  {
    if ps != [] && ps[0].0 != k {
      SetGetOther(ps[1..], k, v, other);
    }
  }

  /** The keys of `src` that `dst` lacks, in the order of their first occurrence. */
  function NewKeys(dst: seq<string>, src: seq<string>): seq<string>
    decreases |src|
  {
    if src == [] then []
    else if src[0] in dst then NewKeys(dst, src[1..])
    else [src[0]] + NewKeys(dst + [src[0]], src[1..])
  }

  /** Every new key comes from `src` and is missing from `dst`. */
  lemma {:induction false} NewKeysFrom(dst: seq<string>, src: seq<string>, k: string)
    requires k in NewKeys(dst, src)
    ensures k in src && k !in dst
    decreases |src|
  {
    if src != [] {
      if src[0] in dst {
        NewKeysFrom(dst, src[1..], k);
      } else if k != src[0] {
        NewKeysFrom(dst + [src[0]], src[1..], k);
      }
    }
  }

  /** `Object.assign(dst, src)` on the properties: the target's keys stay
      first, in place, and at most one key per source property is added. */
  function Assign(dst: Props, src: Props): (r: Props)
    ensures Keys(dst) <= Keys(r)
    ensures |r| <= |dst| + |src|
    decreases |src|
  {
    if src == [] then dst
    else Assign(Set(dst, src[0].0, src[0].1), src[1..])
  }

  lemma NewKeysCons(dst: seq<string>, k: string, rest: seq<string>)
    ensures NewKeys(dst, [k] + rest)
         == if k in dst then NewKeys(dst, rest) else [k] + NewKeys(dst + [k], rest)
  {
    assert ([k] + rest)[0] == k;
    assert ([k] + rest)[1..] == rest;
  }

  /** Keys of `dst` keep their positions; keys new to `dst` follow in the
      order `src` first lists them. */
  lemma {:induction false} AssignKeys(dst: Props, src: Props)
    ensures Keys(Assign(dst, src)) == Keys(dst) + NewKeys(Keys(dst), Keys(src))
    decreases |src|
  {
    if src != [] {
      var k0, rest := src[0].0, Keys(src[1..]);
      var next := Set(dst, k0, src[0].1);
      assert Keys(src) == [k0] + rest;
      NewKeysCons(Keys(dst), k0, rest);
      if k0 in Keys(dst) {
        calc {
          Keys(Assign(dst, src));
          Keys(Assign(next, src[1..]));
          { AssignKeys(next, src[1..]); }
          Keys(next) + NewKeys(Keys(next), rest);
          Keys(dst) + NewKeys(Keys(dst), Keys(src));
        }
      } else {
        calc {
          Keys(Assign(dst, src));
          Keys(Assign(next, src[1..]));
          { AssignKeys(next, src[1..]); }
          Keys(next) + NewKeys(Keys(next), rest);
          (Keys(dst) + [k0]) + NewKeys(Keys(dst) + [k0], rest);
          { AppendAssoc(Keys(dst), k0, NewKeys(Keys(dst) + [k0], rest)); }
          Keys(dst) + ([k0] + NewKeys(Keys(dst) + [k0], rest));
          Keys(dst) + NewKeys(Keys(dst), Keys(src));
        }
      }
    }
  }

  /** Every key of a merged object comes from one of the two. */
  lemma AssignKeyOrigin(dst: Props, src: Props, k: string)
    requires k in Keys(Assign(dst, src))
    ensures k in Keys(dst) || k in Keys(src)
  {
    AssignKeys(dst, src);
    if k !in Keys(dst) {
      NewKeysFrom(Keys(dst), Keys(src), k);
    }
  }

  lemma AppendAssoc<T>(a: seq<T>, x: T, b: seq<T>)
    ensures (a + [x]) + b == a + ([x] + b)
  {
  }

  /** A key reads the value `src` last gave it, and otherwise what `dst` held. */
  lemma {:induction false} AssignGet(dst: Props, src: Props, k: string)
    ensures Get(Assign(dst, src), k) == if k in Keys(src) then GetLast(src, k) else Get(dst, k)
    decreases |src|
  {
    if src != [] {
      var next := Set(dst, src[0].0, src[0].1);
      AssignGet(next, src[1..], k);
      if k != src[0].0 {
        SetGetOther(dst, src[0].0, src[0].1, k);
      }
      assert Keys(src) == [src[0].0] + Keys(src[1..]);
    }
  }

  /** Assigning onto an object never duplicates a key. */
  lemma {:induction false} AssignWellFormed(dst: Props, src: Props)
    requires WellFormed(dst)
    ensures WellFormed(Assign(dst, src))
    decreases |src|
  {
    if src != [] {
      AssignWellFormed(Set(dst, src[0].0, src[0].1), src[1..]);
    }
  }

  /** A key no property carries is not among the keys. */
  lemma {:induction false} NotInKeys(ps: Props, k: string)
    requires forall i :: 0 <= i < |ps| ==> ps[i].0 != k
    ensures k !in Keys(ps)
  {
    if ps != [] {
      assert forall i :: 0 <= i < |ps[1..]| ==> ps[1..][i] == ps[i + 1];
      NotInKeys(ps[1..], k);
    }
  }

  /** Properties with pairwise different keys form an object. */
  lemma {:induction false} DistinctWellFormed(ps: Props)
    requires forall i, j :: 0 <= i < j < |ps| ==> ps[i].0 != ps[j].0
    ensures WellFormed(ps)
  {
    if ps != [] {
      assert forall i :: 0 <= i < |ps[1..]| ==> ps[1..][i] == ps[i + 1];
      NotInKeys(ps[1..], ps[0].0);
      DistinctWellFormed(ps[1..]);
    }
  }

  /** In an object, each property is what its key reads. */
  lemma {:induction false} GetIndex(ps: Props, i: nat)
    requires WellFormed(ps) && i < |ps|
    ensures Get(ps, ps[i].0) == ps[i].1
  {
    if i > 0 {
      KeysIndex(ps[1..], i - 1);
      GetIndex(ps[1..], i - 1);
    }
  }

  lemma {:induction false} KeysAppend(ps: Props, p: (string, Value))
    ensures Keys(ps + [p]) == Keys(ps) + [p.0]
    decreases |ps|
  {
    if ps != [] {
      assert (ps + [p])[1..] == ps[1..] + [p];
      KeysAppend(ps[1..], p);
    }
  }

  /** Setting a key the object lacks appends it. */
  lemma {:induction false} SetAppends(ps: Props, k: string, v: Value)
    requires k !in Keys(ps)
    ensures Set(ps, k, v) == ps + [(k, v)]
    decreases |ps|
  {
    if ps != [] {
      var p, ps' := ps[0], ps[1..];
      assert Keys(ps) == [p.0] + Keys(ps');
      SetAppends(ps', k, v);
      assert Set(ps, k, v) == [p] + (ps' + [(k, v)]);
      assert [p] + (ps' + [(k, v)]) == ([p] + ps') + [(k, v)];
      assert [p] + ps' == ps;
    }
  }

  lemma AppendThenRest<T>(a: seq<T>, b: seq<T>)
    requires b != []
    ensures (a + [b[0]]) + b[1..] == a + b
  {
    assert [b[0]] + b[1..] == b;
  }

  lemma FreshTail(dst: Props, src: Props)
    requires src != [] && WellFormed(src)
    requires forall i :: 0 <= i < |src| ==> src[i].0 !in Keys(dst)
    ensures forall i :: 0 <= i < |src[1..]| ==> src[1..][i].0 !in Keys(dst + [src[0]])
  {
    KeysAppend(dst, src[0]);
    forall i | 0 <= i < |src[1..]|
      ensures src[1..][i].0 != src[0].0
    {
      KeysIndex(src[1..], i);
    }
  }

  /** Assigning properties with fresh, distinct keys concatenates the objects. */
  lemma {:induction false} AssignFresh(dst: Props, src: Props)
    requires WellFormed(src)
    requires forall i :: 0 <= i < |src| ==> src[i].0 !in Keys(dst)
    ensures Assign(dst, src) == dst + src
    decreases |src|
  {
    if src != [] {
      var next := dst + [src[0]];
      assert src[0].0 !in Keys(dst);
      SetAppends(dst, src[0].0, src[0].1);
      assert Assign(dst, src) == Assign(next, src[1..]);
      FreshTail(dst, src);
      AssignFresh(next, src[1..]);
      AppendThenRest(dst, src);
    }
  }

  /** The own enumerable properties `Object.keys` and `Object.assign` see:
      none for `null` and `undefined` (where `Object.keys` throws and
      `Object.assign` skips the source), one per character for a string,
      none for other primitives and functions. */
  function OwnProps(v: Value): (r: Option<Props>)
    ensures r.None? <==> IsNullish(v)
    ensures v.Obj? ==> r == Some(v.props)
    ensures v.Str? ==> r == Some(IndexProps(v.s, 0))
    ensures v.Bool? || v.Num? || v.Func? ==> r == Some([])
  {
    match v
    case Undefined => None
    case Null => None
    case Str(s) => Some(IndexProps(s, 0))
    case Obj(ps) => Some(ps)
    case _ => Some([])
  }

  /** The properties `Object.assign` copies from a source: none from `null`
      or `undefined`. */
  function SourceProps(v: Value): (ps: Props)
    ensures v.Obj? ==> ps == v.props
    ensures IsNullish(v) ==> ps == []
  {
    match OwnProps(v)
    case None => []
    case Some(ps) => ps
  }

  /** The index properties `"i": s[i]` of a string, from index `from` on. */
  function IndexProps(s: string, from: nat): (r: Props)
    requires from <= |s|
    ensures |r| == |s| - from
    ensures forall i :: 0 <= i < |r| ==> r[i] == (NatToString(from + i), Str([s[from + i]]))
    decreases |s| - from
  {
    if from == |s| then [] else [(NatToString(from), Str([s[from]]))] + IndexProps(s, from + 1)
  }
}

=== FILE: json.dfy ===
/**
  The JSON value `JSON.stringify` writes for a JavaScript value. The text
  itself (quoting and escaping) is not modelled; the structure is: which
  members appear, in which order, with which values.
 */
module Json {

  import opened Wrappers
  import opened Js

  datatype Json =
    | JNull
    | JBool(b: bool)
    | JNum(n: int)
    | JStr(s: string)
    | JObject(members: seq<(string, Json)>)

  /** The JSON form of a value; `None` for `undefined` and functions, which
      `JSON.stringify` leaves out of an object. */
  function FromValue(v: Value): (r: Option<Json>)
    ensures r.None? <==> v.Undefined? || v.Func?
    ensures v.Null? ==> r == Some(JNull)
    ensures v.Bool? ==> r == Some(JBool(v.b))
    ensures v.Num? ==> r == Some(JNum(v.n))
    ensures v.Str? ==> r == Some(JStr(v.s))
    ensures v.Obj? ==> r.Some? && r.value.JObject?
    decreases v, 1
  {
    match v
    case Undefined => None
    case Func(_) => None
    case Null => Some(JNull)
    case Bool(b) => Some(JBool(b))
    case Num(n) => Some(JNum(n))
    case Str(s) => Some(JStr(s))
    case Obj(ps) => Some(JObject(Members(ps, v)))
  }

  /** The members of an object with properties `ps`, those without a JSON
      form dropped. */
  function Members(ps: Props, ghost parent: Value): (ms: seq<(string, Json)>)
    requires forall i :: 0 <= i < |ps| ==> ps[i].1 < parent
    ensures |ms| <= |ps|
    decreases parent, 0, |ps|
  {
    if ps == [] then []
    else
      var rest := Members(ps[1..], parent);
      match FromValue(ps[0].1)
      case None => rest
      case Some(j) => [(ps[0].0, j)] + rest
  }

  /** A member's value, looked up by key. */
  function Member(ms: seq<(string, Json)>, k: string): Option<Json> {
    if ms == [] then None
    else if ms[0].0 == k then Some(ms[0].1)
    else Member(ms[1..], k)
  }

  /** In an object without repeated keys, the serialised member for `k` is
      the JSON form of the property `k`, and absent exactly when that
      property is missing, `undefined` or a function. */
  lemma {:induction false} MemberOfMembers(ps: Props, parent: Value, k: string)
    requires forall i :: 0 <= i < |ps| ==> ps[i].1 < parent
    requires WellFormed(ps)
    ensures Member(Members(ps, parent), k) == FromValue(Get(ps, k))
    decreases |ps|
  {
    if ps != [] {
      MemberOfMembers(ps[1..], parent, k);
    }
  }

  /** The JSON object written for an object without repeated keys has, for
      every key, the JSON form of that property. */
  lemma ObjectMember(ps: Props, k: string)
    requires WellFormed(ps)
    ensures FromValue(Obj(ps)).Some? && FromValue(Obj(ps)).value.JObject?
    ensures Member(FromValue(Obj(ps)).value.members, k) == FromValue(Get(ps, k))
  {
    assert forall i :: 0 <= i < |ps| ==> ps[i].1 < Obj(ps);
    MemberOfMembers(ps, Obj(ps), k);
  }
}

=== FILE: registry.dfy ===
/**
  The module-level `waitUntil`/`isReady` pair: `ready` holds a value per
  name, `deferred` the callbacks waiting for a name that has none yet. A
  callback is known by the function value passed in; calling it is
  recorded as an invocation rather than run.
 */
module Registry {

  import opened Js

  datatype Registry = Registry(ready: map<string, Value>, deferred: map<string, seq<Value>>)

  /** A callback called with an argument. */
  datatype Invocation = Invocation(fx: Value, arg: Value)

  /** Both registries empty, as when the script loads. */
  const Initial: Registry := Registry(map[], map[])

  /** `ready[name]`, `undefined` when nothing was registered. */
  function ReadyValue(r: Registry, name: string): Value {
    if name in r.ready then r.ready[name] else Undefined
  }

  /** The callbacks waiting for `name`, oldest first. */
  function Waiting(r: Registry, name: string): seq<Value> {
    if name in r.deferred then r.deferred[name] else []
  }

  /** Every waiting list is non-empty, and only names without a value have one. */
  predicate Consistent(r: Registry) {
    forall n :: n in r.deferred ==> r.deferred[n] != [] && IsNullish(ReadyValue(r, n))
  }

  /** Each callback called with `value`, in order. */
  function CallAll(fxs: seq<Value>, value: Value): (calls: seq<Invocation>)
    ensures |calls| == |fxs|
    ensures forall i :: 0 <= i < |fxs| ==> calls[i] == Invocation(fxs[i], value)
  {
    if fxs == [] then [] else [Invocation(fxs[0], value)] + CallAll(fxs[1..], value)
  }

  /** `waitUntil(name, fx)`: with a value other than `null`/`undefined`
      registered, `fx` is called with it at once and nothing is recorded;
      otherwise `fx` joins the end of the name's waiting list. */
  function WaitUntil(r: Registry, name: string, fx: Value): (res: (Registry, seq<Invocation>))
    ensures !IsNullish(ReadyValue(r, name)) ==> res.0 == r && res.1 == [Invocation(fx, ReadyValue(r, name))]
    ensures IsNullish(ReadyValue(r, name)) ==>
      && res.1 == []
      && res.0.ready == r.ready
      && Waiting(res.0, name) == Waiting(r, name) + [fx]
      && forall n :: n != name ==> Waiting(res.0, n) == Waiting(r, n)
  {
    if !IsNullish(ReadyValue(r, name)) then (r, [Invocation(fx, r.ready[name])])
    else (r.(deferred := r.deferred[name := Waiting(r, name) + [fx]]), [])
  }

  /** `isReady(name, value)`: the value is registered, whatever it is, and
      the callbacks waiting for the name are called with it in the order
      they arrived, after their list is dropped. */
  function IsReady(r: Registry, name: string, value: Value): (res: (Registry, seq<Invocation>))
    ensures ReadyValue(res.0, name) == value
    ensures forall n :: n != name ==> ReadyValue(res.0, n) == ReadyValue(r, n)
    ensures Waiting(res.0, name) == []
    ensures forall n :: n != name ==> Waiting(res.0, n) == Waiting(r, n)
    ensures |res.1| == |Waiting(r, name)|
    ensures forall i :: 0 <= i < |res.1| ==> res.1[i] == Invocation(Waiting(r, name)[i], value)
  {
    var r' := r.(ready := r.ready[name := value]);
    if name in r.deferred then
      (r'.(deferred := r.deferred - {name}), CallAll(r.deferred[name], value))
    else (r', [])
  }

  /** A call to either function. */
  datatype Op = Wait(name: string, fx: Value) | Ready(name: string, value: Value)

  function Apply(r: Registry, op: Op): (Registry, seq<Invocation>) {
    match op
    case Wait(name, fx) => WaitUntil(r, name, fx)
    case Ready(name, value) => IsReady(r, name, value)
  }

  /** A run of calls from `r`: the final registries and every invocation, in order. */
  function Run(r: Registry, ops: seq<Op>): (Registry, seq<Invocation>)
    decreases |ops|
  {
    if ops == [] then (r, [])
    else
      var (r1, calls1) := Apply(r, ops[0]);
      var (r2, calls2) := Run(r1, ops[1..]);
      (r2, calls1 + calls2)
  }

  /** Both functions keep the registries consistent. */
  lemma ApplyConsistent(r: Registry, op: Op)
    requires Consistent(r)
    ensures Consistent(Apply(r, op).0)
  {
    var r' := Apply(r, op).0;
    forall n | n in r'.deferred
      ensures r'.deferred[n] != [] && IsNullish(ReadyValue(r', n))
    {
      assert Waiting(r', n) == r'.deferred[n];
      if n != op.name {
        assert n in r.deferred;
        assert Waiting(r, n) == r.deferred[n];
      }
    }
  }

  lemma {:induction false} RunConsistent(r: Registry, ops: seq<Op>)
    requires Consistent(r)
    ensures Consistent(Run(r, ops).0)
    decreases |ops|
  {
    if ops != [] {
      ApplyConsistent(r, ops[0]);
      RunConsistent(Apply(r, ops[0]).0, ops[1..]);
    }
  }

  /** Whatever the script calls, the registries it starts with stay consistent. */
  lemma InitialRunConsistent(ops: seq<Op>)
    ensures Consistent(Run(Initial, ops).0)
  {
    RunConsistent(Initial, ops);
  }

  /** A callback that waits for a name is called once, with the value, when
      the name becomes ready, after those that were already waiting. */
  lemma WaitThenReady(r: Registry, name: string, fx: Value, value: Value)
    requires IsNullish(ReadyValue(r, name))
    ensures Run(r, [Wait(name, fx), Ready(name, value)]).1
         == CallAll(Waiting(r, name), value) + [Invocation(fx, value)]
  {
    var (r1, c1) := WaitUntil(r, name, fx);
    var (r2, c2) := IsReady(r1, name, value);
    assert [Wait(name, fx), Ready(name, value)][1..] == [Ready(name, value)];
    assert Run(r1, [Ready(name, value)]) == (r2, c2 + []);
    assert c2 == CallAll(Waiting(r, name), value) + [Invocation(fx, value)];
  }

  /** Once a name has a value, a new waiter is called with it straight away. */
  lemma ReadyThenWait(r: Registry, name: string, fx: Value, value: Value)
    requires !IsNullish(value)
    ensures Run(r, [Ready(name, value), Wait(name, fx)]).1
         == CallAll(Waiting(r, name), value) + [Invocation(fx, value)]
  {
    var (r1, c1) := IsReady(r, name, value);
    var (r2, c2) := WaitUntil(r1, name, fx);
    assert [Ready(name, value), Wait(name, fx)][1..] == [Wait(name, fx)];
    assert Run(r1, [Wait(name, fx)]) == (r2, c2 + []);
    assert CallAll(Waiting(r, name), value) == c1;
  }

  /** Marking a name ready a second time calls nobody again. */
  lemma ReadyTwice(r: Registry, name: string, v1: Value, v2: Value)
    ensures IsReady(IsReady(r, name, v1).0, name, v2).1 == []
  {
  }
}

=== FILE: rest.dfy ===
/**
  `rest(method, path, params?, success?, error?)` up to the request it hands
  to the transport: the URL, the fetch options and the JSON body, plus the
  error handler the call's failure is routed to.
 */
module Rest {

  import opened Wrappers
  import opened Js
  import opened Text
  import opened Json
  import TrelloClient

  /** `parseRestArgs`'s result: path without leading slashes, parameters and handlers. */
  datatype RestArgs = RestArgs(path: string, params: Value, success: Value, error: Value)

  /** What `fetch(url, options)` receives. The `Accept` header and the mode
      are the same for every call. */
  datatype Request = Request(url: string, verb: string, accept: string, mode: string, body: Option<Json>)

  /** A prepared call: the request and the handler passed to `.catch`. */
  datatype Call = Call(request: Request, onError: Value)

  /** A synchronous exception, such as a path that is not a string. */
  datatype Thrown = TypeError

  /** The i-th positional argument, `undefined` when it was not passed. */
  function Arg(args: seq<Value>, i: nat): (v: Value)
    ensures i >= |args| ==> v == Undefined
  {
    if i < |args| then args[i] else Undefined
  }

  /** `parseRestArgs([path, params, success, error])`: a function in the
      params position is the success handler, the handlers shift one place
      and the params become `{}`; leading slashes leave the path. */
  function ParseRestArgs(args: seq<Value>): (r: Result<RestArgs, Thrown>)
    ensures r.Failure? <==> !Arg(args, 0).Str?
    ensures r.Success? ==>
      && r.value.path == StripLeadingSlashes(Arg(args, 0).s)
      && (Arg(args, 1).Func? ==>
            r.value.params == Obj([]) && r.value.success == Arg(args, 1) && r.value.error == Arg(args, 2))
      && (!Arg(args, 1).Func? ==>
            r.value.params == Arg(args, 1) && r.value.success == Arg(args, 2) && r.value.error == Arg(args, 3))
  {
    var path, params, success, error := Arg(args, 0), Arg(args, 1), Arg(args, 2), Arg(args, 3);
    var (params', success', error') :=
      if params.Func? then (Obj([]), params, success) else (params, success, error);
    if path.Str? then Success(RestArgs(StripLeadingSlashes(path.s), params', success', error'))
    else Failure(TypeError)
  }

  function Credentials(c: TrelloClient.Client): Props {
    [("key", c.key), ("token", c.token)]
  }

  /** `Object.assign({key, token}, params)`. */
  function RequestData(c: TrelloClient.Client, params: Value): Props {
    Assign(Credentials(c), SourceProps(params))
  }

  /** HEAD and GET, in any letter case, carry their data in the query string. */
  predicate IsQueryMethod(verb: string) {
    var m := LowerAscii(verb);
    m == "head" || m == "get"
  }

  /** The unencoded `k=v` pieces of a GET query. */
  function RawPairs(ps: Props): (r: seq<string>)
    ensures |r| == |ps|
    ensures forall i :: 0 <= i < |ps| ==> r[i] == ps[i].0 + "=" + ToString(ps[i].1)
  {
    if ps == [] then [] else [ps[0].0 + "=" + ToString(ps[0].1)] + RawPairs(ps[1..])
  }

  /** `rest(verb, ...args)` up to the `fetch` call. Every request carries the
      verb, the JSON `Accept` header and CORS mode, starts at the REST base
      and the path, and routes failures to the error handler; only HEAD and
      GET go without a body. */
  function RestCall(c: TrelloClient.Client, verb: string, args: seq<Value>): (r: Result<Call, Thrown>)
    ensures r.Failure? <==> !Arg(args, 0).Str?
    ensures r.Success? ==>
      var a := ParseRestArgs(args).value;
      && r.value.request.verb == verb
      && r.value.request.accept == "application/json"
      && r.value.request.mode == "cors"
      && r.value.onError == a.error
      && TrelloClient.BaseURL + a.path <= r.value.request.url
      && (r.value.request.body.None? <==> IsQueryMethod(verb))
  {
    match ParseRestArgs(args)
    case Failure(e) => Failure(e)
    case Success(a) =>
      var data := RequestData(c, a.params);
      var request :=
        if IsQueryMethod(verb) then
          Request(TrelloClient.BaseURL + a.path + "?" + Join(RawPairs(data), '&'),
                  verb, "application/json", "cors", None)
        else
          Request(TrelloClient.BaseURL + a.path, verb, "application/json", "cors",
                  FromValue(Obj(data)));
      Success(Call(request, a.error))
  }

  lemma GetIsQuery()
    ensures IsQueryMethod("GET")
  {
    assert LowerAscii("GET") == "get";
  }

  /** A verb that starts with neither `h` nor `g`, in either case, sends a body. */
  lemma BodyMethod(verb: string)
    requires |verb| > 0 && verb[0] !in "hHgG"
    ensures !IsQueryMethod(verb)
  {
    var m := LowerAscii(verb);
    assert m[0] == if 'A' <= verb[0] <= 'Z' then (verb[0] as int + 32) as char else verb[0];
    assert m[0] != 'h' && m[0] != 'g';
  }

  /** `get(...args)`: a GET, with its data in the query and no body. */
  function HttpGet(c: TrelloClient.Client, args: seq<Value>): (r: Result<Call, Thrown>)
    ensures r == RestCall(c, "GET", args)
    ensures r.Success? <==> Arg(args, 0).Str?
    ensures r.Success? ==> r.value.request.verb == "GET" && r.value.request.body.None?
  {
    GetIsQuery();
    RestCall(c, "GET", args)
  }

  /** `put(...args)`: a PUT, with its data in the JSON body. */
  function HttpPut(c: TrelloClient.Client, args: seq<Value>): (r: Result<Call, Thrown>)
    ensures r == RestCall(c, "PUT", args)
    ensures r.Success? <==> Arg(args, 0).Str?
    ensures r.Success? ==> r.value.request.verb == "PUT" && r.value.request.body.Some?
  {
    BodyMethod("PUT");
    RestCall(c, "PUT", args)
  }

  /** `post(...args)`: a POST, with its data in the JSON body. */
  function HttpPost(c: TrelloClient.Client, args: seq<Value>): (r: Result<Call, Thrown>)
    ensures r == RestCall(c, "POST", args)
    ensures r.Success? <==> Arg(args, 0).Str?
    ensures r.Success? ==> r.value.request.verb == "POST" && r.value.request.body.Some?
  {
    BodyMethod("POST");
    RestCall(c, "POST", args)
  }

  /** `delete(...args)`: a DELETE, with its data in the JSON body. */
  function HttpDelete(c: TrelloClient.Client, args: seq<Value>): (r: Result<Call, Thrown>)
    ensures r == RestCall(c, "DELETE", args)
    ensures r.Success? <==> Arg(args, 0).Str?
    ensures r.Success? ==> r.value.request.verb == "DELETE" && r.value.request.body.Some?
  {
    BodyMethod("DELETE");
    RestCall(c, "DELETE", args)
  }

  /** The request data holds `key` then `token`, followed by the caller's
      other keys in order; a caller's key wins over the credentials. */
  lemma RequestDataMerge(c: TrelloClient.Client, params: Value)
    ensures var data := RequestData(c, params);
      && WellFormed(data)
      && Keys(data) == ["key", "token"] + NewKeys(["key", "token"], Keys(SourceProps(params)))
      && forall k :: Get(data, k) ==
           if k in Keys(SourceProps(params)) then GetLast(SourceProps(params), k)
           else if k == "key" then c.key
           else if k == "token" then c.token
           else Undefined
  {
    var own := SourceProps(params);
    assert Keys(Credentials(c)) == ["key", "token"];
    AssignKeys(Credentials(c), own);
    AssignWellFormed(Credentials(c), own);
    forall k
      ensures Get(RequestData(c, params), k) ==
        if k in Keys(own) then GetLast(own, k)
        else if k == "key" then c.key
        else if k == "token" then c.token
        else Undefined
    {
      AssignGet(Credentials(c), own, k);
    }
  }

  /** HEAD and GET: the URL is the base, the path, `?` and the data's
      unencoded `k=v` pieces joined by `&`; there is no body. The pieces read
      back one per property when no key or value holds an `&`. */
  lemma QueryRequest(c: TrelloClient.Client, verb: string, args: seq<Value>)
    requires IsQueryMethod(verb)
    requires ParseRestArgs(args).Success?
    ensures var a := ParseRestArgs(args).value;
      var data := RequestData(c, a.params);
      var call := RestCall(c, verb, args);
      var q := Join(RawPairs(data), '&');
      && call.Success?
      && call.value.request == Request(TrelloClient.BaseURL + a.path + "?" + q, verb, "application/json", "cors", None)
      && call.value.onError == a.error
      && ((forall i :: 0 <= i < |data| ==> '&' !in data[i].0 && '&' !in ToString(data[i].1))
            ==> Split(q, '&') == RawPairs(data))
  {
    var a := ParseRestArgs(args).value;
    var data := RequestData(c, a.params);
    RequestDataMerge(c, a.params);
    if forall i :: 0 <= i < |data| ==> '&' !in data[i].0 && '&' !in ToString(data[i].1) {
      forall i | 0 <= i < |data|
        ensures '&' !in RawPairs(data)[i]
      {
        assert RawPairs(data)[i] == data[i].0 + "=" + ToString(data[i].1);
      }
      SplitJoin(RawPairs(data), '&');
    }
  }

  /** Every other method: the URL is the base and the path with no query, and
      the body is the JSON object of the request data, each member the JSON
      form of the merged value (absent for `undefined` and functions). */
  lemma BodyRequest(c: TrelloClient.Client, verb: string, args: seq<Value>, k: string)
    requires !IsQueryMethod(verb)
    requires ParseRestArgs(args).Success?
    ensures var a := ParseRestArgs(args).value;
      var data := RequestData(c, a.params);
      var call := RestCall(c, verb, args);
      && call.Success?
      && call.value.request.url == TrelloClient.BaseURL + a.path
      && call.value.request.body.Some?
      && call.value.request.body.value.JObject?
      && Member(call.value.request.body.value.members, k) == FromValue(Get(data, k))
  {
    var a := ParseRestArgs(args).value;
    var data := RequestData(c, a.params);
    RequestDataMerge(c, a.params);
    var request := Request(TrelloClient.BaseURL + a.path, verb, "application/json", "cors", FromValue(Obj(data)));
    assert RestCall(c, verb, args) == Success(Call(request, a.error));
    ObjectMember(data, k);
  }

  /** A path that is not a string makes `path.replace` throw before any request. */
  lemma PathMustBeString(c: TrelloClient.Client, verb: string, args: seq<Value>)
    requires !Arg(args, 0).Str?
    ensures RestCall(c, verb, args) == Failure(TypeError)
  {
  }
}

=== FILE: scenarios.dfy ===
/**
  Concrete calls worked through the model: the URLs the client builds for
  a GET and for the authorization page, and what fragment recovery does to
  a few fragments.
 */
module Scenarios {

  import opened Wrappers
  import opened Js
  import opened Text
  import opened UriCodec
  import opened TokenPattern
  import opened TrelloClient
  import opened AuthUrl
  import opened Rest
  import opened StorageAdapter
  import opened Authorization
  import opened AuthorizationProps

  /** The query of a GET that passes no parameters. */
  lemma CredentialsQuery(key: string, token: Value)
    ensures Join(RawPairs(RequestData(Client(Str(key), token), Undefined)), '&')
         == "key=" + key + "&" + "token=" + ToString(token)
  {
    CredentialsData(key, token);
    CredentialsPairs(key, token);
    JoinTwo("key=" + key, "token=" + ToString(token));
  }

  lemma CredentialsPairs(key: string, token: Value)
    ensures RawPairs([("key", Str(key)), ("token", token)]) == ["key=" + key, "token=" + ToString(token)]
  {
    assert "key" + "=" == "key=";
    assert "token" + "=" == "token=";
  }

  lemma JoinTwo(x: string, y: string)
    ensures Join([x, y], '&') == x + "&" + y
  {
    assert [x, y][1..] == [y];
  }

  lemma CredentialsData(key: string, token: Value)
    ensures RequestData(Client(Str(key), token), Undefined) == [("key", Str(key)), ("token", token)]
  {
  }

  /** Without a token the query still carries one, as the text `null`. */
  lemma GetWithoutToken()
    ensures var call := HttpGet(NewClient(Str("abc")), [Str("boards")]);
      && call.Success?
      && call.value.request.url == BaseURL + "boards" + "?" + ("key=" + "abc" + "&" + "token=" + "null")
  {
    var c := NewClient(Str("abc"));
    var args := [Str("boards")];
    var q := Join(RawPairs(RequestData(c, Undefined)), '&');
    assert HttpGet(c, args) == Success(Call(Request(BaseURL + "boards" + "?" + q, "GET", "application/json", "cors", None), Undefined)) by {
      assert ParseRestArgs(args) == Success(RestArgs("boards", Undefined, Undefined, Undefined)) by {
        assert StripLeadingSlashes("boards") == "boards";
      }
      GetIsQuery();
      QueryRequest(c, "GET", args);
    }
    CredentialsQuery("abc", Null);
  }

  /** After a default (persisting) attempt on an empty store that found no
      token in the fragment, a GET sends the token as the text `undefined`. */
  lemma GetAfterEmptyStorageRead(env: Env)
    requires env.hash == ""
    ensures var c := Authorize(NewClient(Str("abc")), map[], Undefined, env).client;
      Join(RawPairs(RequestData(c, Undefined)), '&') == "key=" + "abc" + "&" + "token=" + "undefined"
  {
    var c := Authorize(NewClient(Str("abc")), map[], Undefined, env).client;
    assert c == Client(Str("abc"), Undefined) by {
      MergeOptionsGet(Undefined, "persist");
      DefaultValues();
      assert FindToken(env.hash).None? by { EmptyHashNoToken(); }
      EmptyStorageReadKept(Str("abc"), map[], Undefined, env);
    }
    CredentialsQuery("abc", Undefined);
  }

  lemma EmptyHashNoToken()
    ensures FindToken("").None?
  {
  }

  /** A parameter other than `key` and `token` follows the credentials. */
  lemma OneParameterData(v: string)
    ensures RequestData(NewClient(Str("abc")), Obj([("a", Str(v))]))
         == [("key", Str("abc")), ("token", Null), ("a", Str(v))]
  {
    var c := NewClient(Str("abc"));
    assert Keys(Credentials(c)) == ["key", "token"];
    AssignFresh(Credentials(c), [("a", Str(v))]);
  }

  lemma JoinThree(x: string, y: string, z: string)
    ensures Join([x, y, z], '&') == x + "&" + y + "&" + z
  {
    assert [x, y, z][1..] == [y, z];
    assert [y, z][1..] == [z];
    assert Join([z], '&') == z;
    assert Join([y, z], '&') == y + "&" + z;
  }

  lemma OneParameterPairs(v: string)
    ensures RawPairs([("key", Str("abc")), ("token", Null), ("a", Str(v))]) == ["key=abc", "token=null", "a=" + v]
  {
    var data := [("key", Str("abc")), ("token", Null), ("a", Str(v))];
    assert ToString(Null) == "null";
    var r := RawPairs(data);
    assert r[0] == "key=abc" && r[1] == "token=null" && r[2] == "a=" + v;
  }

  /** The query of a GET with one extra parameter `a`. */
  lemma OneParameterQuery(v: string)
    ensures Join(RawPairs(RequestData(NewClient(Str("abc")), Obj([("a", Str(v))]))), '&')
         == "key=abc" + "&" + "token=null" + "&" + "a=" + v
  {
    OneParameterData(v);
    OneParameterPairs(v);
    JoinThree("key=abc", "token=null", "a=" + v);
  }

  /** A space travels raw in a GET query... */
  lemma GetSendsRawValues()
    ensures var call := HttpGet(NewClient(Str("abc")), [Str("x"), Obj([("a", Str("1 2"))])]);
      && call.Success?
      && call.value.request.url == BaseURL + "x" + "?" + ("key=abc" + "&" + "token=null" + "&" + "a=" + "1 2")
  {
    var c := NewClient(Str("abc"));
    var params := Obj([("a", Str("1 2"))]);
    var args := [Str("x"), params];
    var q := Join(RawPairs(RequestData(c, params)), '&');
    assert HttpGet(c, args) == Success(Call(Request(BaseURL + "x" + "?" + q, "GET", "application/json", "cors", None), Undefined)) by {
      assert ParseRestArgs(args) == Success(RestArgs("x", params, Undefined, Undefined)) by {
        assert StripLeadingSlashes("x") == "x";
      }
      GetIsQuery();
      QueryRequest(c, "GET", args);
    }
    OneParameterQuery("1 2");
  }

  /** ...but is percent-encoded as UTF-8 in the authorization URL. */
  lemma SpaceIsEncoded()
    ensures Encode("1 2") == "1%202"
  {
    assert Utf8(' ' as int) == [32];
    assert HexDigit(2) == '2' && HexDigit(0) == '0';
    assert EncodeChar(' ') == "%20";
    assert Encode("2") == "2";
    assert Encode(" 2") == "%20" + "2";
  }

  /** A token fragment is recovered and removed, prefix and all. */
  lemma BareTokenFragment(t: string)
    requires |t| == TokenLength && HexRunAt(t, 0)
    ensures FindToken("#token=" + t) == Some(TokenMatch(0, 71, t))
    ensures StripToken("#token=" + t) == ""
  {
    var h := "#token=" + t;
    assert PrefixedTokenAt(h, 0) by {
      assert h[1..7] == TokenKey;
      assert forall j :: 7 <= j < 71 ==> h[j] == t[j - 7];
    }
    assert h[7..71] == t;
  }

  /** A match starts with `token=`, or with `&` or `#` just before it. */
  lemma MatchStart(h: string, i: int)
    ensures TokenAt(h, i) ==> h[i] == 't'
    ensures PrefixedTokenAt(h, i) ==> (h[i] == '&' || h[i] == '#') && h[i + 1] == 't'
  {
    if TokenAt(h, i) {
      assert h[i] == h[i..i + |TokenKey|][0];
    }
    if PrefixedTokenAt(h, i) {
      assert h[i + 1] == h[i + 1..i + 1 + |TokenKey|][0];
    }
  }

  /** No match starts in `#a=1`. */
  lemma NoMatchInLeadingParameter(h: string)
    requires |h| >= 5 && h[..5] == "#a=1&"
    ensures forall i :: 0 <= i < 4 ==> !MatchesAt(h, i)
  {
    assert h[0] == '#' && h[1] == 'a' && h[2] == '=' && h[3] == '1' && h[4] == '&' by {
      assert forall j :: 0 <= j < 5 ==> h[j] == h[..5][j];
    }
    MatchStart(h, 0);
    MatchStart(h, 1);
    MatchStart(h, 2);
    MatchStart(h, 3);
  }

  /** Only the token and its own `&` leave the fragment; the parameters
      around it stay. */
  lemma TokenAmongOtherParameters(t: string)
    requires |t| == TokenLength && HexRunAt(t, 0)
    ensures StripToken("#a=1&token=" + t + "&b=2") == "#a=1&b=2"
  {
    var h := "#a=1&token=" + t + "&b=2";
    assert h[..5] == "#a=1&";
    NoMatchInLeadingParameter(h);
    assert PrefixedTokenAt(h, 4) by {
      assert h[5..11] == TokenKey;
      assert forall j :: 11 <= j < 75 ==> h[j] == t[j - 11];
    }
    LeftmostMatch(h, 4);
    assert MatchAt(h, 4).end == 75;
    assert h[..4] == "#a=1" && h[75..] == "&b=2";
  }

  /** A token of the wrong length is not recovered. */
  lemma ShortTokenIgnored()
    ensures FindToken("#token=deadbeef") == None
  {
  }
}

=== FILE: storage_adapter.dfy ===
/**
  The client's storage methods over a browser key/value store, here a map
  from names to strings. Every name the client uses carries the prefix
  `trello_`.
 */
module StorageAdapter {

  import opened Js

  type Storage = map<string, string>

  const StoragePrefix: string := "trello_"

  function Slot(key: string): string {
    StoragePrefix + key
  }

  /** Different keys never share a slot. */
  lemma SlotInjective(key1: string, key2: string)
    requires key1 != key2
    ensures Slot(key1) != Slot(key2)
  {
    assert Slot(key1)[|StoragePrefix|..] == key1;
    assert Slot(key2)[|StoragePrefix|..] == key2;
  }

  /** `localStorage[prefix + key]`: the stored string, `undefined` when absent. */
  function ReadStorage(store: Storage, key: string): (v: Value)
    ensures v.Str? || v.Undefined?
    ensures v.Str? <==> Slot(key) in store
    ensures Slot(key) in store ==> v == Str(store[Slot(key)])
  {
    if Slot(key) in store then Str(store[Slot(key)]) else Undefined
  }

  /** `writeStorage(key, value)`: `null` deletes the entry; any other value,
      `undefined` included, is stored as its string form. */
  function WriteStorage(store: Storage, key: string, value: Value): (r: Storage)
    ensures r.Keys == if value == Null then store.Keys - {Slot(key)} else store.Keys + {Slot(key)}
    ensures forall k :: k in store && k != Slot(key) ==> r[k] == store[k]
  {
    if value == Null then store - {Slot(key)} else store[Slot(key) := ToString(value)]
  }

  /** Reading back what was written yields its string form, or nothing after `null`. */
  lemma ReadAfterWrite(store: Storage, key: string, value: Value)
    ensures ReadStorage(WriteStorage(store, key, value), key)
         == if value == Null then Undefined else Str(ToString(value))
  {
  }

  /** A write leaves every other key as it was. */
  lemma ReadOtherAfterWrite(store: Storage, key: string, other: string, value: Value)
    requires key != other
    ensures ReadStorage(WriteStorage(store, key, value), other) == ReadStorage(store, other)
  {
    SlotInjective(key, other);
  }
}

=== FILE: text.dfy ===
/** String helpers the client's serialisers are built from: joining with a
    separator, its inverse, and the two string rewrites the client applies. */
module Text {

  /** `s.indexOf(c)`: the first position of `c`, or -1. */
  function IndexOf(s: string, c: char): (i: int)
    ensures -1 <= i < |s|
    ensures i == -1 <==> c !in s
    ensures i >= 0 ==> s[i] == c && c !in s[..i]
  {
    if s == [] then -1
    else if s[0] == c then 0
    else
      var j := IndexOf(s[1..], c);
      if j < 0 then -1
      else
        assert s[..j + 1] == [s[0]] + s[1..][..j];
        j + 1
  }

  /** `xs.join(sep)`. */
  function Join(xs: seq<string>, sep: char): string {
    if |xs| == 0 then ""
    else if |xs| == 1 then xs[0]
    else xs[0] + [sep] + Join(xs[1..], sep)
  }

  /** `s.split(sep)`: the pieces between separators; `""` splits into `[""]`. */
  function Split(s: string, sep: char): (r: seq<string>)
    ensures |r| > 0
    decreases |s|
  {
    var i := IndexOf(s, sep);
    if i < 0 then [s] else [s[..i]] + Split(s[i + 1..], sep)
  }

  /** A separator-free head is the first piece of a split. */
  lemma FirstSeparator(x: string, sep: char, tail: string)
    requires sep !in x
    ensures Split(x + [sep] + tail, sep) == [x] + Split(tail, sep)
  {
    var s := x + [sep] + tail;
    assert s[..|x|] == x;
    assert s[|x| + 1..] == tail;
    assert IndexOf(s, sep) == |x| by {
      assert s[|x|] == sep;
      assert forall k :: 0 <= k < |x| ==> s[k] == x[k];
    }
  }

  /** Splitting undoes joining when no piece contains the separator. */
  lemma {:induction false} SplitJoin(xs: seq<string>, sep: char)
    requires |xs| > 0
    requires forall i :: 0 <= i < |xs| ==> sep !in xs[i]
    ensures Split(Join(xs, sep), sep) == xs
    decreases |xs|
  {
    if |xs| > 1 {
      var s := Join(xs, sep);
      var tail := Join(xs[1..], sep);
      assert s == xs[0] + [sep] + tail;
      FirstSeparator(xs[0], sep, tail);
      SplitJoin(xs[1..], sep);
      assert [xs[0]] + xs[1..] == xs;
    }
  }

  /** The path's `replace` with the anchored slash-run pattern: drop every
      leading slash. */
  function StripLeadingSlashes(p: string): (r: string)
    ensures |r| <= |p|
    ensures r == p[|p| - |r|..]
    ensures forall i :: 0 <= i < |p| - |r| ==> p[i] == '/'
    ensures r == [] || r[0] != '/'
  {
    if p != [] && p[0] == '/' then StripLeadingSlashes(p[1..]) else p
  }

  /** ASCII case folding; for the method names it is applied to, this decides
      equality with a lower-case ASCII word exactly as `toLowerCase` does. */
  function LowerAscii(s: string): (r: string)
    ensures |r| == |s|
    ensures forall i :: 0 <= i < |s| ==>
      r[i] == if 'A' <= s[i] <= 'Z' then (s[i] as int + 32) as char else s[i]
  {
    if s == [] then [] else
      var c := s[0];
      [if 'A' <= c <= 'Z' then (c as int + 32) as char else c] + LowerAscii(s[1..])
  }
}

=== FILE: token_pattern.dfy ===
/**
  The two token patterns of the authorization flow.

  Fragment recovery uses `/[&#]?token=([0-9a-f]{64})/`: the leftmost position
  where it matches wins, and at that position the optional `&` or `#` is
  taken greedily. The popup handler uses the unanchored `/[0-9a-f]{64}/`:
  any string holding a run of 64 lower-case hex digits passes.
 */
module TokenPattern {

  import opened Wrappers

  const TokenLength: nat := 64
  const TokenKey: string := "token="

  predicate IsHexDigit(c: char) {
    '0' <= c <= '9' || 'a' <= c <= 'f'
  }

  /** `s[i..]` starts with 64 hex digits. */
  predicate HexRunAt(s: string, i: int) {
    0 <= i && i + TokenLength <= |s| && forall j :: i <= j < i + TokenLength ==> IsHexDigit(s[j])
  }

  /** `s[i..]` starts with `token=` and 64 hex digits. */
  predicate TokenAt(h: string, i: int) {
    0 <= i && i + |TokenKey| <= |h| && h[i..i + |TokenKey|] == TokenKey && HexRunAt(h, i + |TokenKey|)
  }

  /** The pattern, prefix included when there is one, matches at `i`. */
  predicate PrefixedTokenAt(h: string, i: int) {
    0 <= i < |h| && (h[i] == '&' || h[i] == '#') && TokenAt(h, i + 1)
  }

  predicate MatchesAt(h: string, i: int) {
    TokenAt(h, i) || PrefixedTokenAt(h, i)
  }

  /** A match: the half-open span `[start, end)` and the captured token. */
  datatype TokenMatch = TokenMatch(start: nat, end: nat, capture: string)

  /** The match at `i`, taking the optional prefix when it is there. */
  function MatchAt(h: string, i: int): (m: TokenMatch)
    requires MatchesAt(h, i)
    ensures m.start == i && m.start < m.end <= |h|
    ensures |m.capture| == TokenLength && HexRunAt(m.capture, 0)
    ensures m.end - m.start == if PrefixedTokenAt(h, i) then 71 else 70
    ensures h[m.start..m.end] == h[m.start..m.end - |TokenKey| - TokenLength] + TokenKey + m.capture
  {
    var tokenStart := if PrefixedTokenAt(h, i) then i + 1 else i;
    var captureStart := tokenStart + |TokenKey|;
    var m := TokenMatch(i, captureStart + TokenLength, h[captureStart..captureStart + TokenLength]);
    assert h[m.start..m.end]
        == h[m.start..tokenStart] + h[tokenStart..captureStart] + h[captureStart..m.end];
    m
  }

  /** The leftmost match at or after `from`. */
  function FindTokenFrom(h: string, from: nat): (r: Option<TokenMatch>)
    ensures r.None? ==> forall i :: from <= i < |h| ==> !MatchesAt(h, i)
    ensures r.Some? ==>
      && from <= r.value.start
      && MatchesAt(h, r.value.start)
      && r.value == MatchAt(h, r.value.start)
      && forall i :: from <= i < r.value.start ==> !MatchesAt(h, i)
    decreases |h| - from
  {
    if from >= |h| then None
    else if MatchesAt(h, from) then Some(MatchAt(h, from))
    else FindTokenFrom(h, from + 1)
  }

  /** `regexToken.exec(hash)`: the first match, if any. */
  function FindToken(h: string): Option<TokenMatch> {
    FindTokenFrom(h, 0)
  }

  /** The first match is at the leftmost position where the pattern matches. */
  lemma LeftmostMatch(h: string, i: nat)
    requires MatchesAt(h, i)
    requires forall j :: 0 <= j < i ==> !MatchesAt(h, j)
    ensures FindToken(h) == Some(MatchAt(h, i))
  {
  }

  /** `hash.replace(regexToken, "")`: the first match, if any, removed. */
  function StripToken(h: string): (r: string)
    ensures FindToken(h).None? ==> r == h
    ensures FindToken(h).Some? ==>
      var m := FindToken(h).value;
      && |r| == |h| - (m.end - m.start)
      && h == r[..m.start] + h[m.start..m.end] + r[m.start..]
  {
    match FindToken(h)
    case None => h
    case Some(m) =>
      var r := h[..m.start] + h[m.end..];
      assert r[..m.start] == h[..m.start];
      assert r[m.start..] == h[m.end..];
      assert h == h[..m.start] + h[m.start..m.end] + h[m.end..];
      r
  }

  /** `/[0-9a-f]{64}/.test(s)`. */
  predicate ContainsHexRun(s: string) {
    exists i :: 0 <= i <= |s| - TokenLength && HexRunAt(s, i)
  }
}

=== FILE: trello_client.dfy ===
/**
  The client object: its fixed endpoints, its key and its in-memory token,
  and the operations on the token that need no network.
 */
module TrelloClient {

  import opened Js
  import opened StorageAdapter

  const Version: int := 1
  const ApiBase: string := "https://api.trello.com/"
  /** The REST base, `https://api.trello.com/1/`. */
  const BaseURL: string := ApiBase + IntToString(Version) + "/"
  const AuthEndpoint: string := "https://trello.com"

  /** The state a client carries; `key` and `token` may hold any value a
      caller sets, the token starting as `null`. */
  datatype Client = Client(key: Value, token: Value)

  /** `new Trello(key)`. */
  function NewClient(key: Value): (c: Client)
    ensures c.key == key
    ensures c.token == Null
  {
    Client(key, Null)
  }

  /** `authorized()`: a token other than `null` or `undefined` is held. */
  predicate Authorized(c: Client): (b: bool)
    ensures b <==> !c.token.Null? && !c.token.Undefined?
  {
    !IsNullish(c.token)
  }

  /** `deauthorize()`: forget the token in memory and in storage. */
  function Deauthorize(c: Client, store: Storage): (r: (Client, Storage))
    ensures !Authorized(r.0) && r.0.token == Null && r.0.key == c.key
    ensures r.1.Keys == store.Keys - {Slot("token")}
    ensures ReadStorage(r.1, "token") == Undefined
    ensures forall k :: k in r.1 ==> r.1[k] == store[k]
  {
    var c' := c.(token := Null);
    (c', WriteStorage(store, "token", c'.token))
  }

  /** Deauthorizing twice is deauthorizing once. */
  lemma DeauthorizeIdempotent(c: Client, store: Storage)
    ensures var (c1, s1) := Deauthorize(c, store); Deauthorize(c1, s1) == (c1, s1)
  {
    var (c1, s1) := Deauthorize(c, store);
    assert s1 - {Slot("token")} == s1;
  }
}

=== FILE: uri_codec.dfy ===
/**
  `encodeURIComponent`: every character outside the unreserved set
  `A-Z a-z 0-9 - _ . ! ~ * ' ( )` is written as the percent-escaped bytes of
  its UTF-8 encoding, with upper-case hex digits. `Decode` is the matching
  `decodeURIComponent`, the reference the encoder is proved against.

  Strings are sequences of Unicode scalar values, so the lone surrogates on
  which `encodeURIComponent` throws do not arise.
 */
module UriCodec {

  import opened Wrappers

  predicate Unreserved(c: char) {
    || 'A' <= c <= 'Z'
    || 'a' <= c <= 'z'
    || '0' <= c <= '9'
    || c in "-_.!~*'()"
  }

  /** Code points a `char` can hold. */
  predicate ScalarValue(cp: int) {
    0 <= cp < 0xD800 || 0xE000 <= cp < 0x11_0000
  }

  predicate IsByte(b: int) {
    0 <= b < 256
  }

  /** The UTF-8 encoding of one code point. */
  function Utf8(cp: int): (bs: seq<int>)
    requires ScalarValue(cp)
    ensures 1 <= |bs| <= 4
    ensures forall i :: 0 <= i < |bs| ==> IsByte(bs[i])
  {
    var q1 := cp / 64;
    var q2 := q1 / 64;
    var q3 := q2 / 64;
    if cp < 0x80 then [cp]
    else if cp < 0x800 then [0xC0 + q1, 0x80 + cp % 64]
    else if cp < 0x1_0000 then [0xE0 + q2, 0x80 + q1 % 64, 0x80 + cp % 64]
    else [0xF0 + q3, 0x80 + q2 % 64, 0x80 + q1 % 64, 0x80 + cp % 64]
  }

  /** How many bytes a UTF-8 sequence starting with `b` has; 0 if `b` cannot start one. */
  function UnitLength(b: int): nat {
    if 0 <= b < 0x80 then 1
    else if 0xC0 <= b < 0xE0 then 2
    else if 0xE0 <= b < 0xF0 then 3
    else if 0xF0 <= b < 0xF8 then 4
    else 0
  }

  predicate Continuations(bs: seq<int>) {
    forall i :: 1 <= i < |bs| ==> 0x80 <= bs[i] < 0xC0
  }

  /** The code point a UTF-8 sequence of 1 to 4 bytes spells. */
  function CodePoint(bs: seq<int>): int
    requires 1 <= |bs| <= 4
  {
    if |bs| == 1 then bs[0]
    else if |bs| == 2 then (bs[0] - 0xC0) * 64 + (bs[1] - 0x80)
    else if |bs| == 3 then (bs[0] - 0xE0) * 4096 + (bs[1] - 0x80) * 64 + (bs[2] - 0x80)
    else (bs[0] - 0xF0) * 262144 + (bs[1] - 0x80) * 4096 + (bs[2] - 0x80) * 64 + (bs[3] - 0x80)
  }

  /** UTF-8 decoding undoes UTF-8 encoding, and the first byte announces the length. */
  lemma Utf8RoundTrip(cp: int)
    requires ScalarValue(cp)
    ensures UnitLength(Utf8(cp)[0]) == |Utf8(cp)|
    ensures Continuations(Utf8(cp))
    ensures CodePoint(Utf8(cp)) == cp
  {
    var q1 := cp / 64;
    var q2 := q1 / 64;
    var q3 := q2 / 64;
    assert cp == q1 * 64 + cp % 64;
    assert q1 == q2 * 64 + q1 % 64;
    assert q2 == q3 * 64 + q2 % 64;
  }

  /** An upper-case hex digit. */
  function HexDigit(d: int): (c: char)
    requires 0 <= d < 16
    ensures '0' <= c <= '9' || 'A' <= c <= 'F'
    ensures Unreserved(c)
  {
    if d < 10 then ('0' as int + d) as char else ('A' as int + d - 10) as char
  }

  function HexValue(c: char): Option<int> {
    if '0' <= c <= '9' then Some(c as int - '0' as int)
    else if 'A' <= c <= 'F' then Some(c as int - 'A' as int + 10)
    else if 'a' <= c <= 'f' then Some(c as int - 'a' as int + 10)
    else None
  }

  /** Each byte as `%` and two hex digits, high nibble first. */
  function PercentBytes(bs: seq<int>): (r: string)
    requires forall i :: 0 <= i < |bs| ==> IsByte(bs[i])
    ensures |r| == 3 * |bs|
    ensures forall i :: 0 <= i < |r| ==> r[i] == '%' || Unreserved(r[i])
  {
    if bs == [] then []
    else
      var b := bs[0];
      assert IsByte(b);
      ['%', HexDigit(b / 16), HexDigit(b % 16)] + PercentBytes(bs[1..])
  }

  /** An unreserved character stands for itself; any other is written as
      the escapes of its UTF-8 bytes. */
  function EncodeChar(c: char): (r: string)
    ensures |r| > 0
    ensures forall i :: 0 <= i < |r| ==> r[i] == '%' || Unreserved(r[i])
    ensures Unreserved(c) ==> r == [c]
    ensures !Unreserved(c) ==> r == PercentBytes(Utf8(c as int))
  {
    if Unreserved(c) then [c] else PercentBytes(Utf8(c as int))
  }

  /** `encodeURIComponent(s)`. Its output never holds a query-string delimiter. */
  function Encode(s: string): (r: string)
    ensures forall i :: 0 <= i < |r| ==> r[i] == '%' || Unreserved(r[i])
    ensures '&' !in r && '=' !in r
  {
    if s == [] then [] else EncodeChar(s[0]) + Encode(s[1..])
  }

  /** A string of unreserved characters is its own encoding. */
  lemma {:induction false} EncodeUnreserved(s: string)
    requires forall i :: 0 <= i < |s| ==> Unreserved(s[i])
    ensures Encode(s) == s
  {
    if s != [] {
      EncodeUnreserved(s[1..]);
      assert [s[0]] + s[1..] == s;
    }
  }

  /** The byte a `%XY` escape at position `i` stands for. */
  function ParseByte(s: string, i: nat): (r: Option<int>)
    ensures r.Some? ==> i + 3 <= |s| && IsByte(r.value)
  {
    if i + 3 <= |s| && s[i] == '%' then
      match (HexValue(s[i + 1]), HexValue(s[i + 2]))
      case (Some(hi), Some(lo)) => Some(hi * 16 + lo)
      case _ => None
    else None
  }

  /** `n` consecutive escapes at the start of `s`. */
  function ParseBytes(s: string, n: nat): (r: Option<seq<int>>)
    ensures r.Some? ==> |r.value| == n && 3 * n <= |s|
  {
    if n == 0 then Some([])
    else
      match ParseByte(s, 0)
      case None => None
      case Some(b) =>
        match ParseBytes(s[3..], n - 1)
        case None => None
        case Some(rest) => Some([b] + rest)
  }

  /** The character a run of escapes at the start of `s` encodes, and its
      length. The bytes must be the shortest UTF-8 form of a scalar value:
      overlong forms, surrogates and values past U+10FFFF are refused. */
  function DecodeEscape(s: string): (r: Option<(char, nat)>)
    ensures r.Some? ==> 0 < r.value.1 <= |s|
  {
    match ParseByte(s, 0)
    case None => None
    case Some(b) =>
      var n := UnitLength(b);
      if n == 0 then None
      else
        match ParseBytes(s, n)
        case None => None
        case Some(bs) =>
          if Continuations(bs) && ScalarValue(CodePoint(bs)) && Utf8(CodePoint(bs)) == bs
          then Some((CodePoint(bs) as char, 3 * n))
          else None
  }

  /** `decodeURIComponent(s)`; `None` where it throws. */
  function Decode(s: string): Option<string>
    decreases |s|
  {
    if s == [] then Some([])
    else
      var unit := if s[0] == '%' then DecodeEscape(s) else Some((s[0], 1));
      match unit
      case None => None
      case Some((c, k)) =>
        match Decode(s[k..])
        case None => None
        case Some(t) => Some([c] + t)
  }

  /** `%C0%80`, an overlong two-byte form of U+0000, does not decode. */
  lemma OverlongRefused()
    ensures Decode("%C0%80") == None
  {
    var s := "%C0%80";
    assert ParseByte(s, 0) == Some(0xC0);
    assert s[3..] == "%80";
    assert ParseByte("%80", 0) == Some(0x80);
    assert ParseBytes("%80", 1) == Some([0x80]) by {
      assert ParseBytes("%80"[3..], 0) == Some([]);
      assert [0x80] + [] == [0x80];
    }
    assert ParseBytes(s, 2) == Some([0xC0, 0x80]) by {
      assert ParseBytes(s[3..], 1) == Some([0x80]);
      assert [0xC0] + [0x80] == [0xC0, 0x80];
    }
    assert CodePoint([0xC0, 0x80]) == 0;
    assert Utf8(0) == [0];
  }

  /** A hex digit reads back as its value. */
  lemma HexValueDigit(d: int)
    requires 0 <= d < 16
    ensures HexValue(HexDigit(d)) == Some(d)
  {
  }

  /** One escape reads back as the byte it was written for. */
  lemma ParseEscapedByte(b: int, rest: string)
    requires IsByte(b)
    ensures ParseByte(['%', HexDigit(b / 16), HexDigit(b % 16)] + rest, 0) == Some(b)
  {
    HexValueDigit(b / 16);
    HexValueDigit(b % 16);
  }

  lemma {:induction false} ParsePercentBytes(bs: seq<int>, rest: string)
    requires forall i :: 0 <= i < |bs| ==> IsByte(bs[i])
    ensures ParseBytes(PercentBytes(bs) + rest, |bs|) == Some(bs)
    decreases |bs|
  {
    if bs != [] {
      var b, bs' := bs[0], bs[1..];
      var tail := PercentBytes(bs') + rest;
      var s := ['%', HexDigit(b / 16), HexDigit(b % 16)] + tail;
      assert PercentBytes(bs) + rest == s;
      ParseEscapedByte(b, tail);
      assert s[3..] == tail;
      ParsePercentBytes(bs', rest);
      assert ParseBytes(s, |bs|) == Some([b] + bs');
      assert [b] + bs' == bs;
    }
  }

  /** Decoding the encoding of one character, followed by anything, yields
      that character and carries on after it. */
  lemma DecodeEncodeChar(c: char, rest: string)
    ensures Decode(EncodeChar(c) + rest)
         == match Decode(rest) case None => None case Some(t) => Some([c] + t)
  {
    var s := EncodeChar(c) + rest;
    if Unreserved(c) {
      assert s[1..] == rest;
    } else {
      var bs := Utf8(c as int);
      Utf8RoundTrip(c as int);
      ParsePercentBytes(bs, rest);
      assert ParseByte(s, 0) == Some(bs[0]) by {
        assert ParseBytes(s, |bs|) == Some(bs);
      }
      assert DecodeEscape(s) == Some((c, 3 * |bs|));
      assert s[3 * |bs|..] == rest;
    }
  }

  /** `decodeURIComponent(encodeURIComponent(s)) == s`. */
  lemma {:induction false} DecodeEncode(s: string)
    ensures Decode(Encode(s)) == Some(s)
  {
    if s != [] {
      assert Encode(s) == EncodeChar(s[0]) + Encode(s[1..]);
      DecodeEncode(s[1..]);
      DecodeEncodeChar(s[0], Encode(s[1..]));
      assert [s[0]] + s[1..] == s;
    }
  }
}

=== FILE: wrappers.dfy ===
/** Optional values and results with an error, for the client's absent
    values and thrown exceptions. */
module Wrappers {

  datatype Option<+T> = None | Some(value: T)

  datatype Result<+T, +E> = Success(value: T) | Failure(error: E)
}
